=== FILE: README.md ===
# Divine Gift Emporium: checkout pipeline and shop pages in Dafny

This project models the core of the Divine Gift Emporium storefront, a React shop with two
Supabase edge functions that talk to Stripe.

- **`create-checkout`** (`create_checkout.dfy`) validates the caller and the cart. It then
  writes a pending order and its item rows, opens a Stripe Checkout session priced in paise,
  and stores the session id on the order.
- **`verify-payment`** (`verify_payment.dfy`) asks Stripe for a session's payment status. Only
  when that status is `paid` does it mark the order paid and confirmed.
- **The checkout page** (`checkout_page.dfy`) guards on sign-in, the cart and the required
  address fields, sends the cart, and clears the cart only once a checkout URL comes back.
- **The catalogue page** (`categories_page.dfy`) covers:
  - the product query it builds (category slug, search text, sort key);
  - the client-side price and brand filter;
  - the de-duplicated brand list;
  - the brand checkbox;
  - the URL update done by the search form.
- **The product page** (`product_details.dfy`) covers the image fallback, the quantity
  stepper clamped to `[1, stock]`, and Add to Cart.

Shared pieces:

- `order_store.dfy` holds the `orders` and `order_items` tables as a class `Store`. Its
  fields are a map keyed by order id and a sequence of item rows. Every insert or update the
  handlers issue is a method of that class. Whether the database rejects a write is an input.
- `js_text.dfy` holds the JavaScript built-ins whose exact behaviour matters:
  - `replace` with a string pattern, which replaces only the first occurrence;
  - `substring`;
  - ASCII `toUpperCase`;
  - the decimal rendering of an integer;
  - `Math.round`.

External services are parameters:

- the token lookup;
- Stripe's `customers.list`, `checkout.sessions.create` and `checkout.sessions.retrieve`;
- the clock and the random string;
- the fresh order id the database assigns.

Each is a function-valued or plain field of an environment value. The checkout handler also
returns the list of external calls it made, in order, so the order of writes can be stated
and proved.

Behaviour of the code worth knowing:

- `update().eq()` on zero rows is not an error, so `verify-payment` answers an unknown
  order id with success and nothing changes (`VerifyPayment.SettleUnknownOrder`).
- `verify-payment` never compares the retrieved session's `metadata.order_id` with the
  `order_id` it is given, so any paid session id confirms any order id: the outcome depends
  only on the session's payment status (`VerifyPayment.HandleVerifyPayment`).
- In `create-checkout`, a failure of the final `stripe_session_id` update is ignored. The
  200 response with the URL is still returned (`CreateCheckout.PersistAndStartSession`).
- The order-number suffix is `substring(2, 8)` of `Math.random().toString(36)`. It has
  fewer than six characters when that string is shorter than eight
  (`CreateCheckout.OrderNumberFormat`).
- A request without an `origin` header gets success and cancel URLs beginning with `null`
  (`CreateCheckout.OriginText`, `CreateCheckout.SessionRequestFor`).
- A product with a negative stock hides the quantity selector but leaves Add to Cart
  enabled, because only `stock_quantity === 0` disables it
  (`ProductDetails.ControlsForStock`).
- The product page does not reset the quantity when another product is loaded, so the
  kept quantity can exceed the new product's stock (`ProductDetails.ProductView.Fetched`);
  it stays at least 1 (`ProductDetails.ProductView.Valid`).
- The "missing information" toast replaces only the first underscore of the field name, so
  the message for `address_line_1` reads "address line_1"
  (`CheckoutPage.MissingMessageForAddressLine`).

## Model

| member | source | states |
|---|---|---|
| JsText.ReplaceFirstNoMatch | supabase/functions/create-checkout/index.ts:59 | `replace` with a pattern that does not occur returns the string unchanged |
| JsText.ReplaceFirst | supabase/functions/create-checkout/index.ts:59 | a pattern at the start is replaced there; a replacement no longer than the pattern never lengthens the text, and one of equal length keeps its length |
| JsText.ReplaceFirstAt | src/pages/Checkout.tsx:85 | `replace` substitutes exactly the first occurrence of the pattern and keeps everything around it |
| JsText.ReplaceFirstCharAt | src/pages/Checkout.tsx:85 | a one-character pattern is replaced at the first index holding that character, and nowhere else |
| JsText.ReplaceFirstCharAbsent | src/pages/Checkout.tsx:85 | a one-character pattern that does not occur leaves the text unchanged |
| JsText.Substring | supabase/functions/create-checkout/index.ts:101 | `substring` never yields more than the text; with indices in range it is the slice between them, swapped when the start is past the end, and an end past the text stops at the text's end |
| JsText.ToUpperCase | supabase/functions/create-checkout/index.ts:101 | upper-casing keeps the length, maps each lower-case letter to its capital and leaves every other character alone |
| JsText.DecimalString | supabase/functions/create-checkout/index.ts:101 | `Date.now()` renders as at least one decimal digit, with no leading zero unless the value is 0 |
| JsText.ParseDecimalOfDecimalString | supabase/functions/create-checkout/index.ts:101 | the millisecond text in the order number determines the clock reading: parsing it gives the number back |
| JsText.UpperCaseOfBase36 | supabase/functions/create-checkout/index.ts:101 | upper-casing base-36 text keeps its length and yields only `0-9A-Z` |
| JsText.MathRound | supabase/functions/create-checkout/index.ts:158 | `Math.round` yields the integer within half a unit of its argument, halves going up |
| JsText.MathRoundOfInteger | supabase/functions/create-checkout/index.ts:158 | `Math.round` leaves an integer unchanged |
| OrderStore.Patched | supabase/functions/create-checkout/index.ts:177-180 | an update never changes an order's id, user, order number or total |
| OrderStore.ApplyUpdate | supabase/functions/verify-payment/index.ts:44-51 | `update().eq("id", id)` patches only the row `id` (if any), keeps the set of orders, and leaves every other row as it was |
| OrderStore.PipelineUpdatesKeepStatuses | supabase/functions/verify-payment/index.ts:42-51 | the session-id write and the settlement write keep every order in one of the two pipeline states, pending/pending or confirmed/paid |
| OrderStore.Store.InsertOrder | supabase/functions/create-checkout/index.ts:106-123 | the new row appears under its fresh id, or, on a database error, nothing changes and the error is reported |
| OrderStore.Store.InsertItems | supabase/functions/create-checkout/index.ts:136-143 | all item rows are appended in order, or none is |
| OrderStore.Store.Update | supabase/functions/create-checkout/index.ts:177-180 | a successful update applies the patch to the one row; a failed one changes nothing |
| CreateCheckout.Token | supabase/functions/create-checkout/index.ts:59 | a header starting with `Bearer ` yields the text after it; the token is never longer than the header |
| CreateCheckout.TokenOfBearer | supabase/functions/create-checkout/index.ts:59 | a `Bearer <credential>` header yields exactly the credential as the token |
| CreateCheckout.ValidationError | supabase/functions/create-checkout/index.ts:40-82 | a request passes exactly when the Stripe key is set, the header is present, the lookup succeeds with a user who has an email, items are non-empty and a shipping address is given; a missing key is reported first |
| CreateCheckout.Total | supabase/functions/create-checkout/index.ts:97 | the reduce over `price * quantity` starting at 0; its meaning is stated by `OrderItemsMatchTotal`, `SessionChargeMatchesTotal` and `TotalNonNegative` |
| CreateCheckout.TotalNonNegative | supabase/functions/create-checkout/index.ts:97 | with no negative price or quantity the total is not negative |
| CreateCheckout.ToOrderItems | supabase/functions/create-checkout/index.ts:129-134 | one item row per request item, in order, with the new order id and the item's own product id, quantity and price |
| CreateCheckout.ItemsTotalOfCopies | supabase/functions/create-checkout/index.ts:129-134 | rows that copy each item's price and quantity have the same Σ price × quantity as the items |
| CreateCheckout.OrderItemsMatchTotal | supabase/functions/create-checkout/index.ts:97-134 | the stored item rows all belong to the new order and their Σ price × quantity equals `total_amount` |
| CreateCheckout.ToLineItems | supabase/functions/create-checkout/index.ts:152-161 | one Stripe line item per request item, in order |
| CreateCheckout.UnitAmount | supabase/functions/create-checkout/index.ts:158 | the unit amount is the price in paise to within half a paisa |
| CreateCheckout.ChargeOfLines | supabase/functions/create-checkout/index.ts:152-161 | line items built from whole-paise prices charge 100 × the items' total |
| CreateCheckout.SessionChargeMatchesTotal | supabase/functions/create-checkout/index.ts:97-161 | when every price is a whole number of paise, Stripe charges exactly 100 × `total_amount` paise |
| CreateCheckout.UnitAmountWithinHalfPaisa | supabase/functions/create-checkout/index.ts:158 | every unit amount is the item's price in paise to within half a paisa |
| CreateCheckout.OrderNumber | supabase/functions/create-checkout/index.ts:101 | the order number starts with `ORD-` and is at most six characters longer than `ORD-<millis>-` |
| CreateCheckout.OrderNumberFormat | supabase/functions/create-checkout/index.ts:101 | the order number reads `ORD-`, the clock's decimal digits (which parse back to the clock), `-`, then up to six characters of `0-9A-Z` taken from the random string's characters 2..7 |
| CreateCheckout.BillingOrShipping | supabase/functions/create-checkout/index.ts:113 | the billing address is the request's billing address when given, otherwise the shipping address |
| CreateCheckout.NewOrder | supabase/functions/create-checkout/index.ts:106-116 | the inserted row carries the given id, user, order number, addresses and the items' total; it is pending/pending with no session id and no update time |
| CreateCheckout.OrderRowFor | supabase/functions/create-checkout/index.ts:97-116 | the inserted row has the fresh id, the caller's user id, the order number built from the clock and the random string (whose shape `OrderNumberFormat` gives), the items' total from the request prices, the shipping address, the billing address or else the shipping address, and pending/pending statuses |
| CreateCheckout.ExistingCustomer | supabase/functions/create-checkout/index.ts:89-94 | the first listed customer is reused when there is one, and none otherwise |
| CreateCheckout.OriginText | supabase/functions/create-checkout/index.ts:163-164 | the `origin` header is used as given, and a missing one renders as `null` |
| CreateCheckout.SessionRequestFor | supabase/functions/create-checkout/index.ts:149-172 | the session names an existing customer or else the user's email, never both; it carries the order and user ids as metadata; each line item is in `inr` with the item's name, quantity and `Math.round(price × 100)`; the mode is `payment` and shipping is limited to `IN`; the success URL is the origin (or `null`) followed by `/order-success` with the session placeholder and ending in the order id, and the cancel URL is the origin followed by `/cart` |
| CreateCheckout.PersistOutcomeConsistent | supabase/functions/create-checkout/index.ts:104-190 | under any failure: earlier orders are untouched, the only new row is the pending order with the right total, item rows are appended all at once and sum to that total, and a success response means both inserts happened |
| CreateCheckout.PersistAndStartSession | supabase/functions/create-checkout/index.ts:87-190 | customer lookup, order insert, item insert, session creation and session-id write happen in that order; the first failure stops the run with its message and undoes nothing; a failed session-id write still answers with the URL |
| CreateCheckout.HandleCreateCheckout | supabase/functions/create-checkout/index.ts:32-199 | a request that fails validation gets that guard's message with no write and no call other than the token lookup; otherwise the token lookup comes first and the rest is the run above for the caller, the items and the new order row; a rejected request gets status 500, and a 200 means the new order row is stored |
| CreateCheckout.FootballScenario | supabase/functions/create-checkout/index.ts:97-161 | two items at 899 give a total of 1798, one item row and one line item of 89900 paise × 2 |
| VerifyPayment.Settle | supabase/functions/verify-payment/index.ts:42-51 | settlement sets the order's payment status to paid, its status to confirmed and its update time, and touches no other row |
| VerifyPayment.SettleTwice | supabase/functions/verify-payment/index.ts:42-51 | settling twice leaves the same statuses; only the update time differs, and the result is one settlement at the second time |
| VerifyPayment.SettleUnknownOrder | supabase/functions/verify-payment/index.ts:44-56 | settling an order id with no row changes nothing and is not an error |
| VerifyPayment.HandleVerifyPayment | supabase/functions/verify-payment/index.ts:17-85 | a missing key, a missing session or order id, or a failed retrieval is an error with no write; an unpaid status answers `success: false` with that status and no write; a paid status settles the order and answers paid/confirmed unless the write fails; the store changes only on success; the status is 200 exactly on the success and unpaid paths, and a 500 never changes the store |
| VerifyPayment.VerifyTwice | supabase/functions/verify-payment/index.ts:42-67 | verifying the same paid session twice answers success both times and leaves one settlement |
| CheckoutPage.WithField | src/pages/Checkout.tsx:53 | editing an address field sets it to the value and leaves every other field as it was |
| CheckoutPage.FirstEmptyIsFirst | src/pages/Checkout.tsx:80-90 | the check reports nothing exactly when every required field is filled; otherwise it reports an empty field that only filled fields precede |
| CheckoutPage.FindMissingField | src/pages/Checkout.tsx:80-90 | the loop returns the first empty required field, or nothing exactly when all are filled |
| CheckoutPage.MissingFieldMessage | src/pages/Checkout.tsx:85 | the message reads "Please fill in the ", the field name as long as it was, then "." |
| CheckoutPage.MissingMessageFirstUnderscore | src/pages/Checkout.tsx:85 | a field name `word_rest` whose `word` has no underscore is shown as `word rest`: the first underscore, and only that one, becomes a space |
| CheckoutPage.MissingMessageNoUnderscore | src/pages/Checkout.tsx:85 | a field name without an underscore is shown as it is |
| CheckoutPage.MissingMessageForAddressLine | src/pages/Checkout.tsx:85 | the message for `address_line_1` is "Please fill in the address line_1." (only the first underscore is replaced) |
| CheckoutPage.ToCheckoutItems | src/pages/Checkout.tsx:95-100 | one request item per cart entry, in order, with the product's id, name and price and the entry's quantity |
| CheckoutPage.CheckoutBodyFor | src/pages/Checkout.tsx:105-110 | the request carries one item per cart entry, and the form's address as both shipping and billing address |
| CheckoutPage.InvokeErrorText | src/pages/Checkout.tsx:115 | the failure toast shows the error's message, or a fixed fallback, so it is never empty |
| CheckoutPage.SentBodyPassesServerGuards | src/pages/Checkout.tsx:95-111 | for a signed-in caller with an email, a body the page sends passes the server's item and address guards; billing equals shipping; the stored rows copy the cart |
| CheckoutPage.CheckoutPage.constructor | src/pages/Checkout.tsx:29-39 | the form starts empty except for country India, and not loading |
| CheckoutPage.CheckoutPage.InputChange | src/pages/Checkout.tsx:52-54 | an edit replaces one field of the address and nothing else |
| CheckoutPage.CheckoutPage.PlaceOrder | src/pages/Checkout.tsx:56-140 | nothing is sent without a user, a non-empty cart and every required field, each refusal with its own toast; a sent request carries the cart and the address as billing too; the cart is emptied only when a non-empty URL comes back; loading always ends false after a send |
| CategoriesPage.FilterProducts | src/pages/Categories.tsx:120-124 | a product is shown exactly when its price is in the range and either no brand is selected or its brand is; each shown product appears as often as it was fetched, and shown products keep their fetched order |
| CategoriesPage.Keep | src/pages/Categories.tsx:121-123 | the filter condition: price within the range, and a selected brand when any brand is selected (a predicate, stated through `FilterProducts`) |
| CategoriesPage.DefaultFilterKeepsPricedProducts | src/pages/Categories.tsx:120-124 | with the default range and no brand selected, exactly the products priced 0..10000 are shown |
| CategoriesPage.Distinct | src/pages/Categories.tsx:111 | `new Set` keeps each value exactly once and loses none |
| CategoriesPage.DistinctInFirstOccurrenceOrder | src/pages/Categories.tsx:111 | the de-duplicated values come in the order of their first occurrence |
| CategoriesPage.NonEmptyBrands | src/pages/Categories.tsx:111 | `filter(Boolean)` keeps exactly the non-empty brands of the products, each as often as it occurs, in the products' order |
| CategoriesPage.UniqueBrands | src/pages/Categories.tsx:111 | the brand list holds each non-empty brand of the products exactly once, and no empty brand |
| CategoriesPage.UniqueBrandsOrder | src/pages/Categories.tsx:111 | the brand list gives the brands in order of first appearance in the products' non-empty brands, which keep the products' order |
| CategoriesPage.RemoveAll | src/pages/Categories.tsx:170 | unchecking removes every occurrence of the brand and keeps every other selection, in order |
| CategoriesPage.ToggleBrand | src/pages/Categories.tsx:166-171 | checking adds one occurrence of the brand and keeps the rest; unchecking leaves no occurrence and keeps every other brand's count |
| CategoriesPage.RemoveAllAbsent | src/pages/Categories.tsx:170 | removing a brand that is not selected changes nothing |
| CategoriesPage.RemoveAllAppend | src/pages/Categories.tsx:166-171 | removing a brand from a selection with one more entry appended removes it from both parts |
| CategoriesPage.ToggleBrandSpec | src/pages/Categories.tsx:166-171 | checking selects the brand, unchecking deselects it, and checking then unchecking an unselected brand restores the selection |
| CategoriesPage.SortOrderFor | src/pages/Categories.tsx:86-101 | an unknown sort key sorts by name ascending; the price column is used exactly for the two price keys; only by-name and low-to-high price sort ascending; `rating` sorts by rating descending and `newest` by `created_at` descending |
| CategoriesPage.FindBySlug | src/pages/Categories.tsx:74 | `find` returns the first category with the slug, or nothing exactly when none has it |
| CategoriesPage.BuildProductQuery | src/pages/Categories.tsx:64-101 | the query is active-only first and ordered last; it has a category clause exactly when a non-empty slug matches a category, and that clause names the first match; it has a search clause, with the typed text, exactly when the text is non-empty |
| CategoriesPage.GetParam | src/pages/Categories.tsx:44-45 | `get` finds nothing exactly when no entry has the key, and otherwise returns the value of an entry under the key |
| CategoriesPage.GetParamFirst | src/pages/Categories.tsx:44-45 | when the first entry under the key is at index `i`, `get` returns that entry's value, so later entries under the same key are never read |
| CategoriesPage.DeleteParam | src/pages/Categories.tsx:133 | `delete` removes every entry under the key and keeps the others |
| CategoriesPage.GetDeleted | src/pages/Categories.tsx:133 | after `delete`, `get` of that key is null and `get` of any other key is unchanged |
| CategoriesPage.DeleteIdempotent | src/pages/Categories.tsx:133 | deleting twice is deleting once |
| CategoriesPage.SetParamSpec | src/pages/Categories.tsx:131 | after `set`, `get` returns the new value, exactly one entry has the key, and every other entry is unchanged and in order |
| CategoriesPage.SetParam | src/pages/Categories.tsx:131 | after `set` the pair is present and entries under other keys are exactly those of before |
| CategoriesPage.HandleSearch | src/pages/Categories.tsx:128-136 | a non-empty query is stored under `search`, an empty one leaves no `search` entry, and entries under other keys are exactly those of before |
| CategoriesPage.ParamOr | src/pages/Categories.tsx:44-45 | a non-empty parameter value is used; an absent or empty one gives the fallback, so the result is never empty when the fallback is not |
| CategoriesPage.HandleSearchSpec | src/pages/Categories.tsx:126-137 | submitting sets `search` to a non-empty query or removes it for an empty one, and leaves all other parameters as they were |
| CategoriesPage.CategoriesView.constructor | src/pages/Categories.tsx:44-49 | the search text and sort key come from the URL, the sort falls back to by-name, the price range starts at 0..10000, and nothing is selected or loaded |
| CategoriesPage.CategoriesView.Visible | src/pages/Categories.tsx:120-124 | the visible products are a subsequence of the loaded ones |
| CategoriesPage.CategoriesView.Loaded | src/pages/Categories.tsx:107-112 | a successful fetch replaces the products and the brand list and keeps the filters |
| CategoriesPage.CategoriesView.BrandChecked | src/pages/Categories.tsx:166-171 | a checkbox change toggles that brand in the selection and nothing else |
| CategoriesPage.CategoriesView.PriceRangeChanged | src/pages/Categories.tsx:145-146 | moving the slider changes only the range, and the visible list is re-filtered with it |
| CategoriesPage.CategoriesView.SortChanged | src/pages/Categories.tsx:245 | choosing a sort key changes only the sort key |
| CategoriesPage.CategoriesView.SearchTyped | src/pages/Categories.tsx:237 | typing changes the search text but not the URL |
| CategoriesPage.CategoriesView.Search | src/pages/Categories.tsx:126-137 | submitting the form updates the URL parameters as `handleSearch` does and changes nothing else |
| ProductDetails.DisplayImages | src/pages/ProductDetails.tsx:101 | the image list is never empty: it is the product's own non-empty list, or else the main image alone |
| ProductDetails.Decremented | src/pages/ProductDetails.tsx:212 | minus lowers the quantity by one but never below 1 |
| ProductDetails.Incremented | src/pages/ProductDetails.tsx:222 | plus raises the quantity by one but never above the stock |
| ProductDetails.SelectorShown | src/pages/ProductDetails.tsx:204 | the quantity selector is rendered only when the stock is positive (a predicate, used by the button methods' preconditions) |
| ProductDetails.DecrementDisabled | src/pages/ProductDetails.tsx:213 | minus is disabled at quantity 1 or below (a predicate; see `DisabledExactlyAtTheBounds`) |
| ProductDetails.IncrementDisabled | src/pages/ProductDetails.tsx:223 | plus is disabled at or above the stock (a predicate; see `DisabledExactlyAtTheBounds`) |
| ProductDetails.AddToCartDisabled | src/pages/ProductDetails.tsx:237 | Add to Cart is disabled exactly at stock 0 (a predicate; see `ControlsForStock`) |
| ProductDetails.StepperKeepsRange | src/pages/ProductDetails.tsx:212-223 | for a product in stock, both buttons keep the quantity within 1..stock and move it by at most one |
| ProductDetails.DisabledExactlyAtTheBounds | src/pages/ProductDetails.tsx:212-223 | a button is disabled exactly when pressing it would not change an in-range quantity; an enabled one moves it by exactly one |
| ProductDetails.ControlsForStock | src/pages/ProductDetails.tsx:204-237 | the selector is shown only when Add to Cart is enabled; a negative stock hides the selector yet leaves Add to Cart enabled |
| ProductDetails.ProductView.constructor | src/pages/ProductDetails.tsx:35-38 | the page starts with no product and quantity 1, so the quantity is at least 1 |
| ProductDetails.ProductView.Fetched | src/pages/ProductDetails.tsx:46-71 | a fetched product is stored; a failed fetch keeps the previously loaded product, if any, and sends the shopper home; the quantity is kept |
| ProductDetails.ProductView.Decrement | src/pages/ProductDetails.tsx:204-216 | the minus button, clickable only when rendered (stock positive) and enabled (quantity above 1), lowers the quantity by exactly one, keeps it at least 1 and keeps an in-range quantity in range |
| ProductDetails.ProductView.Increment | src/pages/ProductDetails.tsx:204-226 | the plus button, clickable only when rendered (stock positive) and enabled (quantity below the stock), raises the quantity by exactly one and leaves it within 1..stock |
| ProductDetails.ProductView.AddToCart | src/pages/ProductDetails.tsx:73-77 | from the button, which is disabled at stock 0, the cart receives the loaded product's id and the current quantity, which is at least 1; without a product nothing is added |

## Left out

- The `OPTIONS` preflight, CORS headers, `console` logging and the construction of
  `Response` objects are not modelled. They are plumbing; the model keeps the JSON body
  as a datatype and the status as a function of it (`HttpStatus`).
- A body that `req.json()` cannot parse is not modelled; it surfaces as an error response
  through the same `catch`.
- Members of the wrong JSON type are outside the model, which types every member. The code
  does not reject all of them: a `price` or `quantity` sent as a numeric string is coerced by
  `*`, and a string or number `shipping_address` passes the truthiness guard and is stored.
- Prices are exact reals, and `price * quantity`, `price * 100` and the running sum are
  exact. Binary floating-point rounding is out of scope. `Math.round` is exact
  round-half-up.
- `Date.now()` and `Math.random().toString(36)` are inputs. Whether two order numbers can
  collide is probabilistic and not stated.
- The order id the database generates is an input. The handler requires that it is not yet
  a key of `orders`, which is what a generated uuid gives.
- CreateCheckout.HandleCreateCheckout: the raw text of the request items is not re-checked
  (for example a non-integer quantity), because the model types items as records with an
  integer quantity.
- Inside `BuildProductQuery`, the PostgREST `ilike` search filter, the database's
  `is_active` filtering and the sorting the database performs are represented only as
  clauses of the query. A query error leaves the page's state as it was, which the model
  shows by calling `Loaded` only for a successful fetch.
- CategoriesPage.CategoriesView.PriceRangeChanged: the slider's own limits (0..10000 in
  steps of 100) are not imposed; any range is accepted.
- The view-mode switch, the category list shown in the sidebar, loading flags, toasts,
  navigation and `window.location` redirects are not modelled beyond the toast text and
  the navigation target that `PlaceOrder` returns. They are UI plumbing.
- The selected-image index and the rating stars of the product page are not modelled; they
  only choose what is drawn.
- The Admin, Profile, Wishlist, Orders, OrderSuccess, Index and Cart pages and the Header,
  ProductCard and CategoryCard components are not part of this model. They are form
  handlers, fetch-and-render pages or static markup. The cart context that Cart delegates to
  is not part of this model.

=== FILE: categories_page.dfy ===
/**
 * The catalogue page: the product query it builds (category slug, search text, sort key),
 * the client-side price and brand filter, the brand list offered as checkboxes, and the
 * search form's update of the URL parameters.
 */
module CategoriesPage {
  import opened Wrappers

  /** The product columns the page's logic reads; a null brand is "". */
  datatype Product = Product(id: string, name: string, price: real, brand: string)

  datatype Category = Category(id: string, name: string, slug: string)

  /** `a` is `b` with some elements left out, the rest kept in order. */
  ghost predicate IsSubsequence<T>(a: seq<T>, b: seq<T>)
    decreases |b|
  {
    if a == [] then true
    else if b == [] then false
    else (a[0] == b[0] && IsSubsequence(a[1..], b[1..])) || IsSubsequence(a, b[1..])
  }

  // ---------------------------------------------------------------- price and brand filter

  const DefaultLowPrice: real := 0.0
  const DefaultHighPrice: real := 10000.0

  /** The `products.filter` predicate: price within `[lo, hi]`, and a selected brand if any is selected. */
  predicate Keep(p: Product, lo: real, hi: real, selected: seq<string>) {
    lo <= p.price <= hi && (|selected| == 0 || p.brand in selected)
  }

  /**
   * `filteredProducts`: the products that pass `Keep`, every one of them, in their
   * fetched order.
   */
  function FilterProducts(products: seq<Product>, lo: real, hi: real, selected: seq<string>): (r: seq<Product>)
    ensures forall p :: p in r <==> p in products && Keep(p, lo, hi, selected)
    ensures multiset(r) <= multiset(products)
    ensures IsSubsequence(r, products)
    ensures forall p :: multiset(r)[p] == if Keep(p, lo, hi, selected) then multiset(products)[p] else 0
  {
    if products == [] then []
    else
      var rest := FilterProducts(products[1..], lo, hi, selected);
      assert products == [products[0]] + products[1..];
      if Keep(products[0], lo, hi, selected) then
        assert ([products[0]] + rest)[1..] == rest;
        [products[0]] + rest
      else
        rest
  }

  /** With the default range and no brand selected, every product priced 0..10000 is shown. */
  lemma DefaultFilterKeepsPricedProducts(products: seq<Product>)
    ensures forall p :: p in FilterProducts(products, DefaultLowPrice, DefaultHighPrice, []) <==>
      p in products && 0.0 <= p.price <= 10000.0
  {
  }

  // ---------------------------------------------------------------- brand list

  ghost predicate NoDuplicates<T>(s: seq<T>) {
    forall i, j :: 0 <= i < j < |s| ==> s[i] != s[j]
  }

  /** The index of the first occurrence of `x` in `xs`. */
  function FirstIndex(xs: seq<string>, x: string): (i: nat)
    requires x in xs
    ensures i < |xs| && xs[i] == x
    ensures forall j :: 0 <= j < i ==> xs[j] != x
    decreases |xs|
  {
    var n := |xs| - 1;
    if x in xs[..n] then FirstIndex(xs[..n], x) else n
  }

  /** `[...new Set(xs)]`: each value once, in the order of its first occurrence. */
  function Distinct(xs: seq<string>): (r: seq<string>)
    ensures forall x :: x in r <==> x in xs
    ensures NoDuplicates(r)
    decreases |xs|
  {
    if xs == [] then []
    else
      var d := Distinct(xs[..|xs| - 1]);
      if xs[|xs| - 1] in d then d else d + [xs[|xs| - 1]]
  }

  /** A value that already occurs before the last element is first found at the same index. */
  lemma FirstIndexInInit(xs: seq<string>, y: string)
    requires xs != [] && y in xs[..|xs| - 1]
    ensures FirstIndex(xs, y) == FirstIndex(xs[..|xs| - 1], y)
  {
  }

  /** `Distinct` lists values in the order in which they first occur. */
  lemma {:induction false} DistinctInFirstOccurrenceOrder(xs: seq<string>)
    ensures forall i, j :: 0 <= i < j < |Distinct(xs)| ==>
      FirstIndex(xs, Distinct(xs)[i]) < FirstIndex(xs, Distinct(xs)[j])
    decreases |xs|
  {
    if xs != [] {
      var n := |xs| - 1;
      var init := xs[..n];
      var d := Distinct(init);
      DistinctInFirstOccurrenceOrder(init);
      var r := Distinct(xs);
      forall i, j | 0 <= i < j < |r|
        ensures FirstIndex(xs, r[i]) < FirstIndex(xs, r[j])
      {
        if j < |d| {
          assert r[i] == d[i] && r[j] == d[j];
          FirstIndexInInit(xs, d[i]);
          FirstIndexInInit(xs, d[j]);
        } else {
          assert r[j] == xs[n] && xs[n] !in init;
          assert r[i] == d[i];
          FirstIndexInInit(xs, d[i]);
        }
      }
    }
  }

  /** `productsData.map(p => p.brand)`. */
  function Brands(products: seq<Product>): seq<string> {
    seq(|products|, i requires 0 <= i < |products| => products[i].brand)
  }

  /**
   * `productsData.map(p => p.brand).filter(Boolean)`: the non-empty brands, each as often as
   * it occurs, in the products' order.
   */
  function NonEmptyBrands(products: seq<Product>): (r: seq<string>)
    ensures forall b :: b in r <==> b != "" && exists p :: p in products && p.brand == b
    ensures IsSubsequence(r, Brands(products))
    ensures forall b :: multiset(r)[b] == if b != "" then multiset(Brands(products))[b] else 0
  {
    if products == [] then []
    else
      assert products[0] in products;
      assert forall p :: p in products[1..] ==> p in products;
      assert forall p :: p in products ==> p == products[0] || p in products[1..];
      var rest := NonEmptyBrands(products[1..]);
      var all := Brands(products);
      assert all == [products[0].brand] + Brands(products[1..]);
      if products[0].brand != "" then
        assert ([products[0].brand] + rest)[1..] == rest;
        [products[0].brand] + rest
      else
        rest
  }

  /**
   * `uniqueBrands`: every non-empty brand of the fetched products exactly once, and no
   * empty brand.
   */
  function UniqueBrands(products: seq<Product>): (r: seq<string>)
    ensures forall b :: b in r <==> b != "" && exists p :: p in products && p.brand == b
    ensures NoDuplicates(r)
  {
    Distinct(NonEmptyBrands(products))
  }

  /** The brand list gives the brands in the order in which they first occur among the products. */
  lemma UniqueBrandsOrder(products: seq<Product>)
    ensures forall i, j :: 0 <= i < j < |UniqueBrands(products)| ==>
      FirstIndex(NonEmptyBrands(products), UniqueBrands(products)[i]) <
      FirstIndex(NonEmptyBrands(products), UniqueBrands(products)[j])
  {
    DistinctInFirstOccurrenceOrder(NonEmptyBrands(products));
  }

  // ---------------------------------------------------------------- brand checkbox

  /** `selectedBrands.filter(b => b !== brand)`. */
  function RemoveAll(selected: seq<string>, brand: string): (r: seq<string>)
    ensures brand !in r
    ensures forall b :: b != brand ==> multiset(r)[b] == multiset(selected)[b]
    ensures IsSubsequence(r, selected)
  {
    if selected == [] then []
    else
      var rest := RemoveAll(selected[1..], brand);
      assert selected == [selected[0]] + selected[1..];
      if selected[0] != brand then
        assert ([selected[0]] + rest)[1..] == rest;
        [selected[0]] + rest
      else
        rest
  }

  /** The checkbox handler: checking appends the brand, unchecking removes every occurrence. */
  function ToggleBrand(selected: seq<string>, brand: string, checked: bool): (r: seq<string>)
    ensures checked ==> brand in r && multiset(r) == multiset(selected) + multiset{brand}
    ensures !checked ==> brand !in r && forall b :: b != brand ==> multiset(r)[b] == multiset(selected)[b]
  {
    if checked then selected + [brand] else RemoveAll(selected, brand)
  }

  /** Removing a brand that is not selected changes nothing. */
  lemma {:induction false} RemoveAllAbsent(selected: seq<string>, brand: string)
    requires brand !in selected
    ensures RemoveAll(selected, brand) == selected
  {
    if selected != [] {
      RemoveAllAbsent(selected[1..], brand);
    }
  }

  lemma {:induction false} RemoveAllAppend(selected: seq<string>, brand: string, other: string)
    ensures RemoveAll(selected + [other], brand) ==
      RemoveAll(selected, brand) + (if other == brand then [] else [other])
  {
    if selected != [] {
      assert (selected + [other])[1..] == selected[1..] + [other];
      RemoveAllAppend(selected[1..], brand, other);
    } else {
      assert RemoveAll([], brand) == [];
    }
  }

  /**
   * Checking a brand makes it selected; unchecking it makes it unselected; and unchecking
   * right after checking a brand that was not selected restores the selection exactly.
   */
  lemma ToggleBrandSpec(selected: seq<string>, brand: string)
    ensures brand in ToggleBrand(selected, brand, true)
    ensures brand !in ToggleBrand(selected, brand, false)
    ensures brand !in selected ==> ToggleBrand(ToggleBrand(selected, brand, true), brand, false) == selected
  {
    if brand !in selected {
      RemoveAllAppend(selected, brand, brand);
      RemoveAllAbsent(selected, brand);
    }
  }

  // ---------------------------------------------------------------- product query

  datatype SortOrder = SortOrder(column: string, ascending: bool)

  /** The `switch (sortBy)`; any value other than the four named ones sorts by name. */
  function SortOrderFor(sortBy: string): (r: SortOrder)
    ensures sortBy !in {"price_low", "price_high", "rating", "newest"} ==> r == SortOrder("name", true)
    ensures r.column == "price" <==> sortBy == "price_low" || sortBy == "price_high"
    ensures r.ascending <==> r.column == "name" || sortBy == "price_low"
    ensures sortBy == "rating" ==> r == SortOrder("rating", false)
    ensures sortBy == "newest" ==> r == SortOrder("created_at", false)
  {
    if sortBy == "price_low" then SortOrder("price", true)
    else if sortBy == "price_high" then SortOrder("price", false)
    else if sortBy == "rating" then SortOrder("rating", false)
    else if sortBy == "newest" then SortOrder("created_at", false)
    else SortOrder("name", true)
  }

  /** `categoriesData.find(cat => cat.slug === slug)`: the first category with that slug. */
  function FindBySlug(categories: seq<Category>, slug: string): (r: Option<Category>)
    ensures r.None? <==> forall i :: 0 <= i < |categories| ==> categories[i].slug != slug
    ensures r.Some? ==> r.value.slug == slug
    ensures r.Some? ==>
      exists i :: 0 <= i < |categories| && categories[i] == r.value &&
        forall j :: 0 <= j < i ==> categories[j].slug != slug
  {
    if categories == [] then None
    else if categories[0].slug == slug then Some(categories[0])
    else
      var r := FindBySlug(categories[1..], slug);
      assert forall i :: 1 <= i < |categories| ==> categories[i] == categories[1..][i - 1];
      r
  }

  /** A step of the query builder. */
  datatype Clause =
    | ActiveOnly
    | InCategory(categoryId: string)
    | NameOrDescriptionLike(term: string)
    | OrderBy(order: SortOrder)

  /**
   * `fetchData`'s query, built step by step: active products only; the category of the
   * first category whose slug is the route's slug, when there is one; the search text when
   * it is non-empty; and the order the sort key names.
   */
  method BuildProductQuery(slug: Option<string>, categories: seq<Category>, searchQuery: string, sortBy: string)
    returns (query: seq<Clause>)
    ensures |query| >= 2 && query[0] == ActiveOnly && query[|query| - 1] == OrderBy(SortOrderFor(sortBy))
    ensures (exists c :: c in query && c.InCategory?) <==>
      slug.Some? && slug.value != "" && exists i :: 0 <= i < |categories| && categories[i].slug == slug.value
    ensures forall c :: c in query && c.InCategory? ==>
      slug.Some? && FindBySlug(categories, slug.value).Some? && c.categoryId == FindBySlug(categories, slug.value).value.id
    ensures (exists c :: c in query && c.NameOrDescriptionLike?) <==> searchQuery != ""
    ensures forall c :: c in query && c.NameOrDescriptionLike? ==> c.term == searchQuery
  {
    query := [ActiveOnly];
    if slug.Some? && slug.value != "" {
      var category := FindBySlug(categories, slug.value);
      if category.Some? {
        query := query + [InCategory(category.value.id)];
        assert query[1].InCategory?;
      }
    }
    ghost var afterCategory := query;
    if searchQuery != "" {
      query := query + [NameOrDescriptionLike(searchQuery)];
      assert query[|query| - 1].NameOrDescriptionLike?;
    }
    query := query + [OrderBy(SortOrderFor(sortBy))];
    assert query[..|afterCategory|] == afterCategory;
    assert forall c :: c in afterCategory ==> c in query;
    assert searchQuery != "" ==> query[|query| - 2] == NameOrDescriptionLike(searchQuery);
  }

  // ---------------------------------------------------------------- URL search parameters

  /** `URLSearchParams.get(k)`: the first value under `k`. */
  function GetParam(ps: seq<(string, string)>, k: string): (r: Option<string>)
    ensures r.None? <==> forall e :: e in ps ==> e.0 != k
    ensures r.Some? ==> (k, r.value) in ps
  {
    if ps == [] then None
    else
      assert forall e :: e in ps ==> e == ps[0] || e in ps[1..];
      if ps[0].0 == k then Some(ps[0].1) else GetParam(ps[1..], k)
  }

  /** `get` returns the value of the FIRST entry under `k`. */
  lemma {:induction false} GetParamFirst(ps: seq<(string, string)>, k: string, i: nat)
    requires i < |ps| && ps[i].0 == k
    requires forall j :: 0 <= j < i ==> ps[j].0 != k
    ensures GetParam(ps, k) == Some(ps[i].1)
  {
    if i > 0 {
      assert ps[0].0 != k;
      GetParamFirst(ps[1..], k, i - 1);
    }
  }

  /** `URLSearchParams.delete(k)`: every entry under `k` goes, the others stay in order. */
  function DeleteParam(ps: seq<(string, string)>, k: string): (r: seq<(string, string)>)
    ensures forall e :: e in r <==> e in ps && e.0 != k
  {
    if ps == [] then []
    else if ps[0].0 == k then DeleteParam(ps[1..], k)
    else [ps[0]] + DeleteParam(ps[1..], k)
  }

  /**
   * `URLSearchParams.set(k, v)`: the first entry under `k` takes the value `v` and the
   * later ones go; with no entry under `k`, one is appended.
   */
  function SetParam(ps: seq<(string, string)>, k: string, v: string): (r: seq<(string, string)>)
    ensures (k, v) in r
    ensures forall e: (string, string) :: e.0 != k ==> (e in r <==> e in ps)
  {
    assert forall e :: e in ps ==> e == ps[0] || e in ps[1..];
    if ps == [] then [(k, v)]
    else if ps[0].0 == k then [(k, v)] + DeleteParam(ps[1..], k)
    else [ps[0]] + SetParam(ps[1..], k, v)
  }

  lemma {:induction false} GetDeleted(ps: seq<(string, string)>, k: string, other: string)
    ensures GetParam(DeleteParam(ps, k), k) == None
    ensures other != k ==> GetParam(DeleteParam(ps, k), other) == GetParam(ps, other)
  {
    if ps != [] {
      GetDeleted(ps[1..], k, other);
    }
  }

  lemma {:induction false} DeleteIdempotent(ps: seq<(string, string)>, k: string)
    ensures DeleteParam(DeleteParam(ps, k), k) == DeleteParam(ps, k)
  {
    if ps != [] {
      DeleteIdempotent(ps[1..], k);
    }
  }

  /**
   * After `set(k, v)`, `get(k)` is `v`, there is exactly one entry under `k`, and the
   * other entries are those of before, in the same order.
   */
  lemma {:induction false} SetParamSpec(ps: seq<(string, string)>, k: string, v: string, other: string)
    ensures GetParam(SetParam(ps, k, v), k) == Some(v)
    ensures other != k ==> GetParam(SetParam(ps, k, v), other) == GetParam(ps, other)
    ensures DeleteParam(SetParam(ps, k, v), k) == DeleteParam(ps, k)
    ensures |SetParam(ps, k, v)| == |DeleteParam(ps, k)| + 1
  {
    if ps == [] {
    } else if ps[0].0 == k {
      GetDeleted(ps[1..], k, other);
      DeleteIdempotent(ps[1..], k);
    } else {
      SetParamSpec(ps[1..], k, v, other);
    }
  }

  /** `handleSearch`: set `search` to a non-empty query, delete it for an empty one. */
  function HandleSearch(ps: seq<(string, string)>, searchQuery: string): (r: seq<(string, string)>)
    ensures searchQuery != "" ==> ("search", searchQuery) in r
    ensures searchQuery == "" ==> forall e :: e in r ==> e.0 != "search"
    ensures forall e: (string, string) :: e.0 != "search" ==> (e in r <==> e in ps)
  {
    if searchQuery != "" then SetParam(ps, "search", searchQuery) else DeleteParam(ps, "search")
  }

  /**
   * Searching leaves `search` equal to a non-empty query or absent for an empty one, and
   * every other parameter as it was, in order.
   */
  lemma HandleSearchSpec(ps: seq<(string, string)>, searchQuery: string, other: string)
    ensures GetParam(HandleSearch(ps, searchQuery), "search") ==
      if searchQuery != "" then Some(searchQuery) else None
    ensures other != "search" ==> GetParam(HandleSearch(ps, searchQuery), other) == GetParam(ps, other)
    ensures DeleteParam(HandleSearch(ps, searchQuery), "search") == DeleteParam(ps, "search")
  {
    SetParamSpec(ps, "search", searchQuery, other);
    GetDeleted(ps, "search", other);
    DeleteIdempotent(ps, "search");
  }

  /** `searchParams.get(k) || fallback`. */
  function ParamOr(ps: seq<(string, string)>, k: string, fallback: string): (r: string)
    ensures r == fallback || GetParam(ps, k) == Some(r)
    ensures fallback != "" ==> r != ""
    ensures GetParam(ps, k).Some? && GetParam(ps, k).value != "" ==> r == GetParam(ps, k).value
    ensures GetParam(ps, k).None? || GetParam(ps, k).value == "" ==> r == fallback
  {
    var v := GetParam(ps, k);
    if v.Some? && v.value != "" then v.value else fallback
  }

  // ---------------------------------------------------------------- page state

  class CategoriesView {
    var searchParams: seq<(string, string)>
    var searchQuery: string
    var sortBy: string
    var priceLow: real
    var priceHigh: real
    var selectedBrands: seq<string>
    var products: seq<Product>
    var brands: seq<string>

    /** The initial state, read from the URL: sort defaults to `name`, the range to `[0, 10000]`. */
    constructor (params: seq<(string, string)>)
      ensures searchParams == params
      ensures searchQuery == ParamOr(params, "search", "")
      ensures sortBy == ParamOr(params, "sort", "name")
      ensures GetParam(params, "sort").None? ==> SortOrderFor(sortBy) == SortOrder("name", true)
      ensures priceLow == DefaultLowPrice && priceHigh == DefaultHighPrice
      ensures selectedBrands == [] && products == [] && brands == []
    {
      searchParams := params;
      searchQuery := ParamOr(params, "search", "");
      sortBy := ParamOr(params, "sort", "name");
      priceLow, priceHigh := DefaultLowPrice, DefaultHighPrice;
      selectedBrands, products, brands := [], [], [];
    }

    /** The visible list. */
    function Visible(): (r: seq<Product>)
      reads this
      ensures IsSubsequence(r, products)
    {
      FilterProducts(products, priceLow, priceHigh, selectedBrands)
    }

    /** The end of a successful `fetchData`: products and their brand list replace the old ones. */
    method Loaded(productsData: seq<Product>)
      modifies this
      ensures products == productsData && brands == UniqueBrands(productsData)
      ensures selectedBrands == old(selectedBrands) && searchParams == old(searchParams)
      ensures priceLow == old(priceLow) && priceHigh == old(priceHigh)
      ensures searchQuery == old(searchQuery) && sortBy == old(sortBy)
    {
      products := productsData;
      brands := UniqueBrands(productsData);
    }

    /** The brand checkbox's `onCheckedChange`. */
    method BrandChecked(brand: string, checked: bool)
      modifies this
      ensures selectedBrands == ToggleBrand(old(selectedBrands), brand, checked)
      ensures products == old(products) && brands == old(brands) && searchParams == old(searchParams)
      ensures priceLow == old(priceLow) && priceHigh == old(priceHigh)
      ensures searchQuery == old(searchQuery) && sortBy == old(sortBy)
    {
      selectedBrands := ToggleBrand(selectedBrands, brand, checked);
    }

    /** The price slider's `onValueChange`: the range changes, nothing is fetched again. */
    method PriceRangeChanged(lo: real, hi: real)
      modifies this
      ensures priceLow == lo && priceHigh == hi
      ensures Visible() == FilterProducts(products, lo, hi, selectedBrands)
      ensures products == old(products) && brands == old(brands) && selectedBrands == old(selectedBrands)
      ensures searchParams == old(searchParams) && searchQuery == old(searchQuery) && sortBy == old(sortBy)
    {
      priceLow, priceHigh := lo, hi;
    }

    /** The sort menu's `onValueChange`. */
    method SortChanged(value: string)
      modifies this
      ensures sortBy == value
      ensures products == old(products) && brands == old(brands) && selectedBrands == old(selectedBrands)
      ensures searchParams == old(searchParams) && searchQuery == old(searchQuery)
      ensures priceLow == old(priceLow) && priceHigh == old(priceHigh)
    {
      sortBy := value;
    }

    /** The search box's `onChange`: the text is kept, the URL is untouched until the form is submitted. */
    method SearchTyped(value: string)
      modifies this
      ensures searchQuery == value && searchParams == old(searchParams)
      ensures products == old(products) && brands == old(brands) && selectedBrands == old(selectedBrands)
      ensures sortBy == old(sortBy) && priceLow == old(priceLow) && priceHigh == old(priceHigh)
    {
      searchQuery := value;
    }

    /** `handleSearch`. */
    method Search()
      modifies this
      ensures searchParams == HandleSearch(old(searchParams), searchQuery)
      ensures searchQuery == old(searchQuery) && sortBy == old(sortBy)
      ensures selectedBrands == old(selectedBrands) && products == old(products) && brands == old(brands)
      ensures priceLow == old(priceLow) && priceHigh == old(priceHigh)
    {
      searchParams := HandleSearch(searchParams, searchQuery);
    }
  }
}

=== FILE: checkout_page.dfy ===
/**
 * The storefront's checkout page: the shipping-address form and `handlePlaceOrder`, which
 * guards on the signed-in user and the cart, checks the required address fields in a fixed
 * order, sends the cart to `create-checkout`, and empties the cart only once a checkout URL
 * has come back.
 */
module CheckoutPage {
  import opened Wrappers
  import opened JsText
  import opened OrderStore
  import opened CreateCheckout

  /** The part of a cart entry's product that checkout reads. */
  datatype CartProduct = CartProduct(id: string, name: string, price: real)

  datatype CartItem = CartItem(product: CartProduct, quantity: int)

  /** `supabase.functions.invoke('create-checkout', ...)`: an error, or the returned data. */
  datatype InvokeReply = InvokeError(message: string) | InvokeData(url: Option<string>)

  /** A destructive toast (optionally followed by navigation), or the redirect to Stripe. */
  datatype Outcome =
    | Notified(title: string, description: string, navigateTo: Option<string>)
    | Redirected(url: string)

  /** The fields checked, in the order they are checked. */
  const RequiredFields: seq<string> := ["full_name", "address_line_1", "city", "state", "postal_code", "phone"]

  /** The form's initial state: every field empty except `country`. */
  const InitialAddress := Address("", "", "", "", "", "", "India", "")

  /** `shippingAddress[field]`; a name that is not a field reads as empty. */
  function FieldValue(a: Address, field: string): string {
    if field == "full_name" then a.fullName
    else if field == "address_line_1" then a.addressLine1
    else if field == "address_line_2" then a.addressLine2
    else if field == "city" then a.city
    else if field == "state" then a.state
    else if field == "postal_code" then a.postalCode
    else if field == "country" then a.country
    else if field == "phone" then a.phone
    else ""
  }

  /** `{...prev, [field]: value}`: that field takes the value, every other field keeps its own. */
  function WithField(a: Address, field: string, value: string): (r: Address)
    ensures IsAddressField(field) ==> FieldValue(r, field) == value
    ensures forall other :: other != field ==> FieldValue(r, other) == FieldValue(a, other)
  {
    if field == "full_name" then a.(fullName := value)
    else if field == "address_line_1" then a.(addressLine1 := value)
    else if field == "address_line_2" then a.(addressLine2 := value)
    else if field == "city" then a.(city := value)
    else if field == "state" then a.(state := value)
    else if field == "postal_code" then a.(postalCode := value)
    else if field == "country" then a.(country := value)
    else if field == "phone" then a.(phone := value)
    else a
  }

  predicate IsAddressField(field: string) {
    field in {"full_name", "address_line_1", "address_line_2", "city", "state", "postal_code", "country", "phone"}
  }

  /** The first of `fields` that is empty in `a`. */
  function FirstEmpty(a: Address, fields: seq<string>): Option<string> {
    if fields == [] then None
    else if FieldValue(a, fields[0]) == "" then Some(fields[0])
    else FirstEmpty(a, fields[1..])
  }

  /**
   * `FirstEmpty` finds nothing exactly when every field is filled, and otherwise names a
   * field that is empty and is preceded only by filled ones.
   */
  lemma {:induction false} FirstEmptyIsFirst(a: Address, fields: seq<string>)
    ensures FirstEmpty(a, fields).None? <==> forall i :: 0 <= i < |fields| ==> FieldValue(a, fields[i]) != ""
    ensures FirstEmpty(a, fields).Some? ==>
      exists i :: 0 <= i < |fields| && fields[i] == FirstEmpty(a, fields).value && FieldValue(a, fields[i]) == "" &&
        forall j :: 0 <= j < i ==> FieldValue(a, fields[j]) != ""
  {
    if fields != [] && FieldValue(a, fields[0]) != "" {
      FirstEmptyIsFirst(a, fields[1..]);
      if FirstEmpty(a, fields[1..]).Some? {
        var i :| 0 <= i < |fields[1..]| && fields[1..][i] == FirstEmpty(a, fields[1..]).value &&
          FieldValue(a, fields[1..][i]) == "" && forall j :: 0 <= j < i ==> FieldValue(a, fields[1..][j]) != "";
        assert fields[i + 1] == FirstEmpty(a, fields).value;
        assert forall j :: 0 <= j < i + 1 ==> FieldValue(a, fields[j]) != "" by {
          forall j | 0 <= j < i + 1 ensures FieldValue(a, fields[j]) != "" {
            if j > 0 { assert fields[j] == fields[1..][j - 1]; }
          }
        }
      } else {
        assert forall i :: 0 <= i < |fields| ==> FieldValue(a, fields[i]) != "" by {
          forall i | 0 <= i < |fields| ensures FieldValue(a, fields[i]) != "" {
            if i > 0 { assert fields[i] == fields[1..][i - 1]; }
          }
        }
      }
    } else if fields != [] {
      assert fields[0] == FirstEmpty(a, fields).value;
    }
  }

  /** The `for (const field of requiredFields)` loop: the first empty required field, if any. */
  method FindMissingField(a: Address) returns (missing: Option<string>)
    ensures missing == FirstEmpty(a, RequiredFields)
    ensures missing.None? <==> forall i :: 0 <= i < |RequiredFields| ==> FieldValue(a, RequiredFields[i]) != ""
    ensures missing.Some? ==> missing.value in RequiredFields && FieldValue(a, missing.value) == ""
  {
    var i := 0;
    while i < |RequiredFields|
      invariant 0 <= i <= |RequiredFields|
      invariant forall j :: 0 <= j < i ==> FieldValue(a, RequiredFields[j]) != ""
      invariant FirstEmpty(a, RequiredFields) == FirstEmpty(a, RequiredFields[i..])
    {
      var field := RequiredFields[i];
      if FieldValue(a, field) == "" {
        return Some(field);
      }
      assert RequiredFields[i..][1..] == RequiredFields[i + 1..];
      i := i + 1;
    }
    return None;
  }

  /** `Please fill in the ${field.replace('_', ' ')}.`: only the first underscore becomes a space. */
  function MissingFieldMessage(field: string): (m: string)
    ensures |m| == |field| + 20
    ensures m[..19] == "Please fill in the " && m[|m| - 1] == '.'
  {
    "Please fill in the " + ReplaceFirst(field, "_", " ") + "."
  }

  /**
   * A field name `word_rest` whose `word` has no underscore is shown as `word rest`: its first
   * underscore, and only that one, becomes a space.
   */
  lemma MissingMessageFirstUnderscore(word: string, rest: string)
    requires '_' !in word
    ensures MissingFieldMessage(word + "_" + rest) == "Please fill in the " + word + " " + rest + "."
  {
    var field := word + "_" + rest;
    assert field[..|word|] == word && field[|word| + 1..] == rest;
    ReplaceFirstCharAt(field, '_', " ", |word|);
  }

  /** A field name without an underscore is shown as it is. */
  lemma MissingMessageNoUnderscore(field: string)
    requires '_' !in field
    ensures MissingFieldMessage(field) == "Please fill in the " + field + "."
  {
    ReplaceFirstCharAbsent(field, '_', " ");
  }

  /** The message for `address_line_1` keeps its second underscore. */
  lemma MissingMessageForAddressLine()
    ensures MissingFieldMessage("address_line_1") == "Please fill in the address line_1."
  {
    MissingMessageFirstUnderscore("address", "line_1");
    assert "address" + "_" + "line_1" == "address_line_1";
    assert "Please fill in the " + "address" + " " + "line_1" + "." == "Please fill in the address line_1.";
  }

  /** `cartItems.map(...)` into the request's items: one per cart entry, in order. */
  function ToCheckoutItems(cart: seq<CartItem>): (items: seq<CheckoutItem>)
    ensures |items| == |cart|
    ensures forall i :: 0 <= i < |cart| ==>
      items[i] == CheckoutItem(cart[i].product.id, cart[i].quantity, cart[i].product.price, cart[i].product.name)
  {
    if cart == [] then []
    else [CheckoutItem(cart[0].product.id, cart[0].quantity, cart[0].product.price, cart[0].product.name)]
         + ToCheckoutItems(cart[1..])
  }

  /** The body sent to `create-checkout`: billing is the shipping address. */
  function CheckoutBodyFor(cart: seq<CartItem>, address: Address): (b: CheckoutBody)
    ensures b.shippingAddress == Some(address) && b.billingAddress == Some(address)
    ensures b.items.Some? && |b.items.value| == |cart|
  {
    CheckoutBody(Some(ToCheckoutItems(cart)), Some(address), Some(address))
  }

  /**
   * A body the page sends always passes the server's item and address guards, the server
   * stores the shipping address as the billing address too, and the stored item rows carry
   * each cart entry's product id, quantity and catalogue price, in cart order.
   */
  lemma SentBodyPassesServerGuards(cart: seq<CartItem>, address: Address, req: CheckoutRequest, env: Services)
    requires cart != []
    requires req.body == CheckoutBodyFor(cart, address)
    requires env.stripeKey != "" && req.authorization != ""
    requires env.getUser(Token(req.authorization)).AuthOk?
    requires env.getUser(Token(req.authorization)).user.Some?
    requires env.getUser(Token(req.authorization)).user.value.email != ""
    ensures ValidationError(req, env).None?
    ensures OrderRowFor(req, env).billingAddress == OrderRowFor(req, env).shippingAddress == address
    ensures var rows := ToOrderItems(env.newOrderId, req.body.items.value);
      && |rows| == |cart|
      && forall i :: 0 <= i < |cart| ==>
           rows[i] == OrderItem(env.newOrderId, cart[i].product.id, cart[i].quantity, cart[i].product.price)
  {
  }

  /** What the failure toast says: the error's message, or a fallback when it has none. */
  function InvokeErrorText(message: string): (t: string)
    ensures t != ""
    ensures message != "" ==> t == message
  {
    if message == "" then "Failed to create checkout session" else message
  }

  class CheckoutPage {
    var cart: seq<CartItem>
    var isLoading: bool
    var shippingAddress: Address

    constructor (cart: seq<CartItem>)
      ensures this.cart == cart && !isLoading && shippingAddress == InitialAddress
    {
      this.cart := cart;
      isLoading := false;
      shippingAddress := InitialAddress;
    }

    /** `handleInputChange(field, value)`. */
    method InputChange(field: string, value: string)
      modifies this
      ensures shippingAddress == WithField(old(shippingAddress), field, value)
      ensures cart == old(cart) && isLoading == old(isLoading)
    {
      shippingAddress := WithField(shippingAddress, field, value);
    }

    /**
     * `handlePlaceOrder`. Nothing is sent without a signed-in user, a non-empty cart and
     * every required field; the cart is emptied only when the server answered with a
     * non-empty URL; a request that was sent always ends with `isLoading` false.
     */
    method PlaceOrder(signedIn: bool, invoke: CheckoutBody -> InvokeReply)
      returns (outcome: Outcome, sent: Option<CheckoutBody>)
      modifies this
      ensures shippingAddress == old(shippingAddress)
      ensures !signedIn ==>
        && sent.None? && cart == old(cart) && isLoading == old(isLoading)
        && outcome == Notified("Authentication required", "Please sign in to place an order.", Some("/auth"))
      ensures signedIn && old(cart) == [] ==>
        && sent.None? && cart == old(cart) && isLoading == old(isLoading)
        && outcome == Notified("Empty cart", "Please add items to your cart before checkout.", Some("/cart"))
      ensures signedIn && old(cart) != [] && FirstEmpty(shippingAddress, RequiredFields).Some? ==>
        && sent.None? && cart == old(cart) && isLoading == old(isLoading)
        && outcome == Notified("Missing information",
                               MissingFieldMessage(FirstEmpty(shippingAddress, RequiredFields).value), None)
      ensures signedIn && old(cart) != [] && FirstEmpty(shippingAddress, RequiredFields).None? ==>
        var body := CheckoutBodyFor(old(cart), shippingAddress);
        && sent == Some(body)
        && !isLoading
        && match invoke(body)
           case InvokeError(m) =>
             outcome == Notified("Checkout failed", InvokeErrorText(m), None) && cart == old(cart)
           case InvokeData(url) =>
             if url.None? || url.value == "" then
               outcome == Notified("Checkout failed", "No checkout URL received", None) && cart == old(cart)
             else
               outcome == Redirected(url.value) && cart == []
    {
      sent := None;
      if !signedIn {
        outcome := Notified("Authentication required", "Please sign in to place an order.", Some("/auth"));
        return;
      }
      if cart == [] {
        outcome := Notified("Empty cart", "Please add items to your cart before checkout.", Some("/cart"));
        return;
      }
      var missing := FindMissingField(shippingAddress);
      if missing.Some? {
        outcome := Notified("Missing information", MissingFieldMessage(missing.value), None);
        return;
      }

      isLoading := true;
      var body := CheckoutBodyFor(cart, shippingAddress);
      sent := Some(body);
      var reply := invoke(body);
      if reply.InvokeError? {
        outcome := Notified("Checkout failed", InvokeErrorText(reply.message), None);
      } else if reply.url.None? || reply.url.value == "" {
        outcome := Notified("Checkout failed", "No checkout URL received", None);
      } else {
        cart := [];
        outcome := Redirected(reply.url.value);
      }
      isLoading := false;
    }
  }
}

=== FILE: create_checkout.dfy ===
/**
 * The `create-checkout` edge function: it authenticates the caller, validates the cart
 * snapshot, stores a pending order and its item rows, asks Stripe for a hosted checkout
 * session, and writes the session id back onto the order.
 *
 * Stripe, the auth lookup, the clock, `Math.random` and the database's verdict on each
 * write are inputs gathered in `Services`; the handler reports the external calls it made,
 * in order, so that the write sequence can be stated.
 */
module CreateCheckout {
  import opened Wrappers
  import opened JsText
  import opened OrderStore

  /** One entry of the request's `items`, exactly as the storefront sent it. */
  datatype CheckoutItem = CheckoutItem(productId: string, quantity: int, price: real, name: string)

  /** The parsed JSON body; a missing member is `None`. */
  datatype CheckoutBody = CheckoutBody(
    items: Option<seq<CheckoutItem>>,
    shippingAddress: Option<Address>,
    billingAddress: Option<Address>)

  /** `authorization` is "" when the header is absent; `origin` is `None` when it is. */
  datatype CheckoutRequest = CheckoutRequest(authorization: string, origin: Option<string>, body: CheckoutBody)

  /** An authenticated user; an email of "" means the account has none. */
  datatype User = User(id: string, email: string)

  /** `supabase.auth.getUser(token)`: an error, or a possibly-null user. */
  datatype AuthReply = AuthFailed(message: string) | AuthOk(user: Option<User>)

  /** `stripe.customers.list({email, limit: 1})`: a thrown error, or the ids found. */
  datatype CustomerReply = CustomersFailed(message: string) | CustomersListed(ids: seq<string>)

  /** One entry of the session's `line_items`, with its `price_data`. */
  datatype LineItem = LineItem(currency: string, productName: string, unitAmount: int, quantity: int)

  /** The argument of `stripe.checkout.sessions.create`. */
  datatype SessionRequest = SessionRequest(
    customer: Option<string>,
    customerEmail: Option<string>,
    lineItems: seq<LineItem>,
    mode: string,
    successUrl: string,
    cancelUrl: string,
    metadataOrderId: string,
    metadataUserId: string,
    allowedCountries: seq<string>)

  /** `stripe.checkout.sessions.create(...)`: a thrown error, or the new session. */
  datatype SessionReply = SessionFailed(message: string) | SessionCreated(id: string, url: string)

  /** Everything the handler learns from outside its own code. */
  datatype Services = Services(
    stripeKey: string,
    getUser: string -> AuthReply,
    listCustomers: string -> CustomerReply,
    createSession: SessionRequest -> SessionReply,
    nowMillis: nat,
    randomBase36: string,
    newOrderId: string,
    orderInsertFault: Option<string>,
    itemsInsertFault: Option<string>,
    sessionUpdateFault: Option<string>)

  /** An external call the handler made, with its argument. */
  datatype Call =
    | GetUser(token: string)
    | ListCustomers(email: string)
    | InsertOrder(row: Order)
    | InsertItems(rows: seq<OrderItem>)
    | CreateSession(request: SessionRequest)
    | UpdateOrder(orderId: string, patch: Patch)

  /** `{url, order_id}` with status 200, or `{error}` with status 500. */
  datatype CheckoutResponse = Created(url: string, orderId: string) | Failed(error: string)

  /** The status the response is sent with: 200 with the session URL, 500 from the `catch`. */
  function HttpStatus(r: CheckoutResponse): int {
    if r.Created? then 200 else 500
  }

  /** `authHeader.replace("Bearer ", "")`. */
  function Token(authorization: string): (t: string)
    ensures "Bearer " <= authorization ==> t == authorization[7..]
    ensures |t| <= |authorization|
  {
    ReplaceFirst(authorization, "Bearer ", "")
  }

  /** A well-formed bearer header yields exactly its credential. */
  lemma TokenOfBearer(credential: string)
    ensures Token("Bearer " + credential) == credential
  {
    ReplaceFirstAt("Bearer " + credential, "Bearer ", "", 0);
  }

  /**
   * The first guard of the handler that rejects the request, with its message, or `None`
   * when the request passes them all. The guards run in this order: Stripe key,
   * Authorization header, token lookup, user email, items, shipping address.
   */
  function ValidationError(req: CheckoutRequest, env: Services): (r: Option<string>)
    ensures r.None? <==>
      && env.stripeKey != ""
      && req.authorization != ""
      && env.getUser(Token(req.authorization)).AuthOk?
      && env.getUser(Token(req.authorization)).user.Some?
      && env.getUser(Token(req.authorization)).user.value.email != ""
      && req.body.items.Some? && |req.body.items.value| > 0
      && req.body.shippingAddress.Some?
    ensures env.stripeKey == "" ==> r == Some("Stripe configuration missing")
  {
    if env.stripeKey == "" then Some("Stripe configuration missing")
    else if req.authorization == "" then Some("No authorization header provided")
    else match env.getUser(Token(req.authorization))
      case AuthFailed(m) => Some("Authentication failed: " + m)
      case AuthOk(u) =>
        if u.None? || u.value.email == "" then Some("User not authenticated")
        else if req.body.items.None? || req.body.items.value == [] then Some("No items provided for checkout")
        else if req.body.shippingAddress.None? then Some("Shipping address is required")
        else None
  }

  /** The authenticated caller of a request that passed validation. */
  function Caller(req: CheckoutRequest, env: Services): User
    requires ValidationError(req, env).None?
  {
    env.getUser(Token(req.authorization)).user.value
  }

  /** `body.items.reduce((sum, item) => sum + item.price * item.quantity, 0)`, exactly. */
  function Total(items: seq<CheckoutItem>): real {
    if items == [] then 0.0
    else Total(items[..|items| - 1]) + items[|items| - 1].price * items[|items| - 1].quantity as real
  }

  /** With no negative price or quantity, the total is never negative. */
  lemma {:induction false} TotalNonNegative(items: seq<CheckoutItem>)
    requires forall i :: 0 <= i < |items| ==> items[i].price >= 0.0 && items[i].quantity >= 0
    ensures Total(items) >= 0.0
    decreases |items|
  {
    if items != [] {
      var n := |items| - 1;
      TotalNonNegative(items[..n]);
      assert items[n].price * items[n].quantity as real >= 0.0;
    }
  }

  /** Σ price × quantity over stored item rows. */
  function ItemsTotal(rows: seq<OrderItem>): real {
    if rows == [] then 0.0
    else ItemsTotal(rows[..|rows| - 1]) + rows[|rows| - 1].price * rows[|rows| - 1].quantity as real
  }

  function OrderItemOf(orderId: string, item: CheckoutItem): OrderItem {
    OrderItem(orderId, item.productId, item.quantity, item.price)
  }

  /** `body.items.map(...)` into `order_items` rows: one row per item, in order. */
  function ToOrderItems(orderId: string, items: seq<CheckoutItem>): (rows: seq<OrderItem>)
    ensures |rows| == |items|
    ensures forall i :: 0 <= i < |items| ==> rows[i] == OrderItemOf(orderId, items[i])
  {
    if items == [] then [] else [OrderItemOf(orderId, items[0])] + ToOrderItems(orderId, items[1..])
  }

  /** Rows that copy each item's price and quantity add up to the same total. */
  lemma {:induction false} ItemsTotalOfCopies(rows: seq<OrderItem>, items: seq<CheckoutItem>)
    requires |rows| == |items|
    requires forall i :: 0 <= i < |items| ==> rows[i].price == items[i].price && rows[i].quantity == items[i].quantity
    ensures ItemsTotal(rows) == Total(items)
    decreases |items|
  {
    if items != [] {
      ItemsTotalOfCopies(rows[..|rows| - 1], items[..|items| - 1]);
    }
  }

  /**
   * The stored item rows belong to the new order, keep each item's product, quantity and
   * price, and add up to the order's `total_amount`.
   */
  lemma OrderItemsMatchTotal(orderId: string, items: seq<CheckoutItem>)
    ensures |ToOrderItems(orderId, items)| == |items|
    ensures forall r :: r in ToOrderItems(orderId, items) ==> r.orderId == orderId
    ensures ItemsTotal(ToOrderItems(orderId, items)) == Total(items)
  {
    ItemsTotalOfCopies(ToOrderItems(orderId, items), items);
  }

  /** `Math.round(item.price * 100)`: the price in paise. */
  function UnitAmount(price: real): (u: int)
    ensures u as real - 0.5 <= price * 100.0 < u as real + 0.5
  {
    MathRound(price * 100.0)
  }

  function LineItemOf(item: CheckoutItem): LineItem {
    LineItem("inr", item.name, UnitAmount(item.price), item.quantity)
  }

  /** `body.items.map(...)` into Stripe line items: one per item, in order. */
  function ToLineItems(items: seq<CheckoutItem>): (lines: seq<LineItem>)
    ensures |lines| == |items|
    ensures forall i :: 0 <= i < |items| ==> lines[i] == LineItemOf(items[i])
  {
    if items == [] then [] else [LineItemOf(items[0])] + ToLineItems(items[1..])
  }

  /** What Stripe charges for the line items, in paise. */
  function SessionCharge(lines: seq<LineItem>): int {
    if lines == [] then 0
    else SessionCharge(lines[..|lines| - 1]) + lines[|lines| - 1].unitAmount * lines[|lines| - 1].quantity
  }

  /** The price is a whole number of paise, so `price * 100` needs no rounding. */
  predicate WholePaise(price: real) {
    (price * 100.0).Floor as real == price * 100.0
  }

  lemma {:induction false} ChargeOfLines(lines: seq<LineItem>, items: seq<CheckoutItem>)
    requires |lines| == |items|
    requires forall i :: 0 <= i < |items| ==> lines[i] == LineItemOf(items[i]) && WholePaise(items[i].price)
    ensures SessionCharge(lines) as real == 100.0 * Total(items)
    decreases |items|
  {
    if items != [] {
      var n := |items| - 1;
      ChargeOfLines(lines[..n], items[..n]);
      var p, q := items[n].price, items[n].quantity;
      var u := (p * 100.0).Floor;
      MathRoundOfInteger(u);
      assert lines[n].unitAmount == u;
      assert (u * q) as real == (p * 100.0) * q as real;
      assert (p * 100.0) * q as real == 100.0 * (p * q as real);
    }
  }

  /**
   * When every price is a whole number of paise, the Stripe session charges exactly
   * 100 × `total_amount`.
   */
  lemma SessionChargeMatchesTotal(items: seq<CheckoutItem>)
    requires forall i :: 0 <= i < |items| ==> WholePaise(items[i].price)
    ensures SessionCharge(ToLineItems(items)) as real == 100.0 * Total(items)
  {
    ChargeOfLines(ToLineItems(items), items);
  }

  /** Each unit amount is the price in paise to within half a paisa. */
  lemma UnitAmountWithinHalfPaisa(items: seq<CheckoutItem>)
    ensures forall i :: 0 <= i < |items| ==>
      -0.5 <= items[i].price * 100.0 - ToLineItems(items)[i].unitAmount as real < 0.5
  {
    forall i | 0 <= i < |items|
      ensures -0.5 <= items[i].price * 100.0 - ToLineItems(items)[i].unitAmount as real < 0.5
    {
      assert ToLineItems(items)[i] == LineItemOf(items[i]);
    }
  }

  /** `ORD-${Date.now()}-${Math.random().toString(36).substring(2, 8).toUpperCase()}`. */
  function OrderNumber(nowMillis: nat, randomBase36: string): (s: string)
    ensures |s| >= 6 && s[..4] == "ORD-"
    ensures |s| <= 5 + |DecimalString(nowMillis)| + 6
  {
    "ORD-" + DecimalString(nowMillis) + "-" + ToUpperCase(Substring(randomBase36, 2, 8))
  }

  /** `s` reads `ORD-`, then `digits` decimal digits, `-`, then `suffix` characters of `0-9A-Z`. */
  predicate OrderNumberShape(s: string, digits: nat, suffix: nat) {
    && |s| == 5 + digits + suffix
    && s[..4] == "ORD-"
    && digits >= 1
    && (forall i :: 4 <= i < 4 + digits ==> IsDigit(s[i]))
    && s[4 + digits] == '-'
    && (forall i :: 5 + digits <= i < |s| ==> IsUpperAlnum(s[i]))
  }

  /**
   * The order number has the shape `ORD-<digits>-<suffix>`, the digits spell the clock
   * reading, and the suffix is the random string's characters 2..7 upper-cased: six of them
   * when that string is at least eight characters long, fewer otherwise.
   */
  lemma OrderNumberFormat(nowMillis: nat, randomBase36: string)
    requires forall i :: 2 <= i < |randomBase36| ==> IsBase36Lower(randomBase36[i])
    ensures var d := |DecimalString(nowMillis)|;
      var suffix := if |randomBase36| >= 8 then 6 else if |randomBase36| >= 2 then |randomBase36| - 2 else 0;
      && OrderNumberShape(OrderNumber(nowMillis, randomBase36), d, suffix)
      && ParseDecimal(OrderNumber(nowMillis, randomBase36)[4..4 + d]) == nowMillis
  {
    var digits := DecimalString(nowMillis);
    var cut := Substring(randomBase36, 2, 8);
    assert forall i :: 0 <= i < |cut| ==> cut[i] == randomBase36[i + 2];
    UpperCaseOfBase36(cut);
    var s := OrderNumber(nowMillis, randomBase36);
    assert s == "ORD-" + digits + "-" + ToUpperCase(cut);
    assert s[4..4 + |digits|] == digits;
    ParseDecimalOfDecimalString(nowMillis);
  }

  /** `body.billing_address || body.shipping_address`. */
  function BillingOrShipping(body: CheckoutBody, shipping: Address): (a: Address)
    ensures body.billingAddress.Some? ==> a == body.billingAddress.value
    ensures body.billingAddress.None? ==> a == shipping
  {
    body.billingAddress.GetOr(shipping)
  }

  /** The row inserted into `orders`. */
  function NewOrder(id: string, userId: string, orderNumber: string, items: seq<CheckoutItem>,
                    shipping: Address, billing: Address): (o: Order)
    ensures o.id == id && o.userId == userId && o.orderNumber == orderNumber
    ensures o.totalAmount == Total(items)
    ensures o.shippingAddress == shipping && o.billingAddress == billing
    ensures PipelineStatus(o) && o.status == PENDING && o.paymentStatus == PENDING
    ensures o.stripeSessionId.None? && o.updatedAt.None?
  {
    Order(id, userId, orderNumber, Total(items), shipping, billing, PENDING, PENDING, None, None)
  }

  /** The order row built for a request that passed validation. */
  function OrderRowFor(req: CheckoutRequest, env: Services): (o: Order)
    requires ValidationError(req, env).None?
    ensures o.id == env.newOrderId && o.userId == Caller(req, env).id
    ensures o.orderNumber == OrderNumber(env.nowMillis, env.randomBase36)
    ensures o.totalAmount == Total(req.body.items.value)
    ensures o.shippingAddress == req.body.shippingAddress.value
    ensures o.billingAddress == if req.body.billingAddress.Some? then req.body.billingAddress.value
                                else req.body.shippingAddress.value
    ensures o.status == PENDING && o.paymentStatus == PENDING && o.stripeSessionId.None?
  {
    var shipping := req.body.shippingAddress.value;
    NewOrder(env.newOrderId, Caller(req, env).id, OrderNumber(env.nowMillis, env.randomBase36),
             req.body.items.value, shipping, BillingOrShipping(req.body, shipping))
  }

  /** `customers.data.length > 0 ? customers.data[0].id : undefined`. */
  function ExistingCustomer(ids: seq<string>): (c: Option<string>)
    ensures c.Some? <==> |ids| > 0
    ensures c.Some? ==> c.value == ids[0]
  {
    if |ids| > 0 then Some(ids[0]) else None
  }

  /** A template literal renders a missing `origin` header as "null". */
  function OriginText(origin: Option<string>): (t: string)
    ensures origin.Some? ==> t == origin.value
    ensures origin.None? ==> t == "null"
  {
    origin.GetOr("null")
  }

  /** The `stripe.checkout.sessions.create` argument for an order. */
  function SessionRequestFor(orderId: string, user: User, items: seq<CheckoutItem>,
                             customer: Option<string>, origin: Option<string>): (s: SessionRequest)
    ensures s.customer.Some? <==> s.customerEmail.None?
    ensures s.customerEmail.Some? ==> s.customerEmail.value == user.email
    ensures s.customer == customer
    ensures s.metadataOrderId == orderId && s.metadataUserId == user.id
    ensures |s.lineItems| == |items|
    ensures forall i :: 0 <= i < |items| ==>
      s.lineItems[i].currency == "inr" && s.lineItems[i].quantity == items[i].quantity &&
      s.lineItems[i].productName == items[i].name &&
      s.lineItems[i].unitAmount == MathRound(items[i].price * 100.0)
    ensures s.mode == "payment" && s.allowedCountries == ["IN"]
    ensures s.successUrl == OriginText(origin) + "/order-success?session_id={CHECKOUT_SESSION_ID}&order_id=" + orderId
    ensures s.cancelUrl == OriginText(origin) + "/cart"
    ensures |s.successUrl| >= |orderId| && s.successUrl[|s.successUrl| - |orderId|..] == orderId
  {
    SessionRequest(
      customer,
      if customer.Some? then None else Some(user.email),
      ToLineItems(items),
      "payment",
      OriginText(origin) + "/order-success?session_id={CHECKOUT_SESSION_ID}&order_id=" + orderId,
      OriginText(origin) + "/cart",
      orderId,
      user.id,
      ["IN"])
  }

  /** Whether a call writes to the database. */
  predicate IsWrite(c: Call) {
    c.InsertOrder? || c.InsertItems? || c.UpdateOrder?
  }

  /**
   * What the part of the handler after validation leaves behind, from the store's tables
   * before (`orders`, `items`) and after (`orders'`, `items'`): customer lookup, order
   * insert, item insert, session creation and the session-id write-back happen in this
   * order, the first failure stops the run, and nothing written before it is undone.
   * `calls` lists the external calls in the order they were made.
   */
  ghost predicate PersistOutcome(
    orders: map<string, Order>, items: seq<OrderItem>,
    orders': map<string, Order>, items': seq<OrderItem>,
    resp: CheckoutResponse, calls: seq<Call>,
    user: User, cart: seq<CheckoutItem>, row: Order, origin: Option<string>, env: Services)
  {
    var rows := ToOrderItems(row.id, cart);
    var lookup := env.listCustomers(user.email);
    if lookup.CustomersFailed? then
      && resp == Failed(lookup.message)
      && orders' == orders && items' == items
      && calls == [ListCustomers(user.email)]
    else if env.orderInsertFault.Some? then
      && resp == Failed("Failed to create order: " + env.orderInsertFault.value)
      && orders' == orders && items' == items
      && calls == [ListCustomers(user.email), InsertOrder(row)]
    else if env.itemsInsertFault.Some? then
      && resp == Failed("Failed to create order items: " + env.itemsInsertFault.value)
      && orders' == orders[row.id := row] && items' == items
      && calls == [ListCustomers(user.email), InsertOrder(row), InsertItems(rows)]
    else
      var sreq := SessionRequestFor(row.id, user, cart, ExistingCustomer(lookup.ids), origin);
      match env.createSession(sreq)
      case SessionFailed(m) =>
        && resp == Failed(m)
        && orders' == orders[row.id := row]
        && items' == items + rows
        && calls == [ListCustomers(user.email), InsertOrder(row), InsertItems(rows), CreateSession(sreq)]
      case SessionCreated(sid, url) =>
        && resp == Created(url, row.id)
        && orders' == (if env.sessionUpdateFault.None?
                       then orders[row.id := row.(stripeSessionId := Some(sid))]
                       else orders[row.id := row])
        && items' == items + rows
        && calls == [ListCustomers(user.email), InsertOrder(row), InsertItems(rows), CreateSession(sreq),
                     UpdateOrder(row.id, SessionIdPatch(sid))]
  }

  /**
   * Whatever the run's failures, earlier orders keep their rows, the only new row is the
   * pending/pending order, its item rows are appended all at once and add up to its
   * total, and a success response means both writes happened.
   */
  lemma PersistOutcomeConsistent(
    orders: map<string, Order>, items: seq<OrderItem>,
    orders': map<string, Order>, items': seq<OrderItem>,
    resp: CheckoutResponse, calls: seq<Call>,
    user: User, cart: seq<CheckoutItem>, row: Order, origin: Option<string>, env: Services)
    requires row.id !in orders
    requires row.status == PENDING && row.paymentStatus == PENDING && row.totalAmount == Total(cart)
    requires PersistOutcome(orders, items, orders', items', resp, calls, user, cart, row, origin, env)
    ensures forall k :: k in orders ==> k in orders' && orders'[k] == orders[k]
    ensures orders'.Keys <= orders.Keys + {row.id}
    ensures row.id in orders' ==>
      && orders'[row.id].status == PENDING && orders'[row.id].paymentStatus == PENDING
      && orders'[row.id].totalAmount == Total(cart)
    ensures items' == items || items' == items + ToOrderItems(row.id, cart)
    ensures |items'| > |items| ==> row.id in orders' && ItemsTotal(items'[|items|..]) == row.totalAmount
    ensures resp.Created? ==> row.id in orders' && items' == items + ToOrderItems(row.id, cart)
  {
    OrderItemsMatchTotal(row.id, cart);
    if |items'| > |items| {
      assert items' == items + ToOrderItems(row.id, cart);
      assert items'[|items|..] == ToOrderItems(row.id, cart);
    }
  }

  /** The part of the handler after validation. */
  method PersistAndStartSession(store: Store, user: User, items: seq<CheckoutItem>, row: Order,
                                origin: Option<string>, env: Services)
    returns (resp: CheckoutResponse, calls: seq<Call>)
    requires row.id !in store.orders
    modifies store
    ensures PersistOutcome(old(store.orders), old(store.orderItems), store.orders, store.orderItems,
                           resp, calls, user, items, row, origin, env)
  {
    var lookup := env.listCustomers(user.email);
    calls := [ListCustomers(user.email)];
    if lookup.CustomersFailed? {
      resp := Failed(lookup.message);
      return;
    }
    var customerId := ExistingCustomer(lookup.ids);

    var err := store.InsertOrder(row, env.orderInsertFault);
    calls := calls + [InsertOrder(row)];
    if err.Some? {
      resp := Failed("Failed to create order: " + err.value);
      return;
    }

    var rows := ToOrderItems(row.id, items);
    err := store.InsertItems(rows, env.itemsInsertFault);
    calls := calls + [InsertItems(rows)];
    if err.Some? {
      resp := Failed("Failed to create order items: " + err.value);
      return;
    }

    var sreq := SessionRequestFor(row.id, user, items, customerId, origin);
    var session := env.createSession(sreq);
    calls := calls + [CreateSession(sreq)];
    if session.SessionFailed? {
      resp := Failed(session.message);
      return;
    }

    // The outcome of this write is not inspected: the response is the same either way.
    var patch := SessionIdPatch(session.id);
    err := store.Update(row.id, patch, env.sessionUpdateFault);
    calls := calls + [UpdateOrder(row.id, patch)];
    resp := Created(session.url, row.id);
  }

  /**
   * The `serve` handler for a POST. A request rejected by validation fails before any
   * write; otherwise, after the token lookup, the run is the one `PersistOutcome` describes
   * for the caller, the request's items and the new pending order row.
   */
  method HandleCreateCheckout(store: Store, req: CheckoutRequest, env: Services)
    returns (resp: CheckoutResponse, calls: seq<Call>)
    requires env.newOrderId !in store.orders
    modifies store
    ensures ValidationError(req, env).Some? ==>
      && resp == Failed(ValidationError(req, env).value)
      && store.orders == old(store.orders) && store.orderItems == old(store.orderItems)
      && |calls| <= 1 && (forall c :: c in calls ==> !IsWrite(c))
      && (forall c :: c in calls ==> c == GetUser(Token(req.authorization)))
    ensures ValidationError(req, env).None? ==>
      && |calls| >= 1
      && calls[0] == GetUser(Token(req.authorization))
      && PersistOutcome(old(store.orders), old(store.orderItems), store.orders, store.orderItems,
                        resp, calls[1..], Caller(req, env), req.body.items.value, OrderRowFor(req, env),
                        req.origin, env)
    ensures ValidationError(req, env).Some? ==> HttpStatus(resp) == 500
    ensures HttpStatus(resp) == 200 ==> ValidationError(req, env).None? && env.newOrderId in store.orders
  {
    calls := [];
    if env.stripeKey == "" {
      resp := Failed("Stripe configuration missing");
      return;
    }
    if req.authorization == "" {
      resp := Failed("No authorization header provided");
      return;
    }
    var token := Token(req.authorization);
    var auth := env.getUser(token);
    calls := [GetUser(token)];
    if auth.AuthFailed? {
      resp := Failed("Authentication failed: " + auth.message);
      return;
    }
    if auth.user.None? || auth.user.value.email == "" {
      resp := Failed("User not authenticated");
      return;
    }
    var user := auth.user.value;
    if req.body.items.None? || req.body.items.value == [] {
      resp := Failed("No items provided for checkout");
      return;
    }
    if req.body.shippingAddress.None? {
      resp := Failed("Shipping address is required");
      return;
    }
    var items := req.body.items.value;
    var shipping := req.body.shippingAddress.value;
    var orderNumber := OrderNumber(env.nowMillis, env.randomBase36);
    var row := NewOrder(env.newOrderId, user.id, orderNumber, items, shipping, BillingOrShipping(req.body, shipping));
    var rest;
    resp, rest := PersistAndStartSession(store, user, items, row, req.origin, env);
    calls := calls + rest;
  }

  /**
   * The example checkout: two footballs at 899 give a total of 1798 and one Stripe line
   * item of 89900 paise for quantity 2.
   */
  lemma FootballScenario()
    ensures var items := [CheckoutItem("p1", 2, 899.0, "Premium Football")];
      && Total(items) == 1798.0
      && ToOrderItems("o1", items) == [OrderItem("o1", "p1", 2, 899.0)]
      && ToLineItems(items) == [LineItem("inr", "Premium Football", 89900, 2)]
  {
    var items := [CheckoutItem("p1", 2, 899.0, "Premium Football")];
    MathRoundOfInteger(89900);
    assert items[..0] == [];
  }
}

=== FILE: js_text.dfy ===
/**
 * The few JavaScript string and number built-ins the checkout pipeline relies on:
 * `String.prototype.replace` with a string pattern, `substring`, `toUpperCase` on ASCII,
 * the decimal rendering of a non-negative integer in a template literal, and `Math.round`.
 */
module JsText {

  /** `pat` occurs in `s` starting at index `k`. */
  ghost predicate OccursAt(s: string, pat: string, k: int) {
    0 <= k && k + |pat| <= |s| && s[k..k + |pat|] == pat
  }

  /**
   * `s.replace(pat, rep)` for a string `pat`: only the FIRST occurrence is replaced,
   * and an empty pattern matches at index 0.
   */
  function ReplaceFirst(s: string, pat: string, rep: string): (r: string)
    ensures pat <= s ==> r == rep + s[|pat|..]
    ensures |rep| <= |pat| ==> |r| <= |s|
    ensures |rep| == |pat| ==> |r| == |s|
    decreases |s|
  {
    if pat <= s then rep + s[|pat|..]
    else if s == [] then []
    else [s[0]] + ReplaceFirst(s[1..], pat, rep)
  }

  lemma OccursAtTail(s: string, pat: string, j: int)
    requires s != [] && j >= 0
    ensures OccursAt(s[1..], pat, j) <==> OccursAt(s, pat, j + 1)
  {
    if 0 <= j && j + |pat| <= |s| - 1 {
      assert s[1..][j..j + |pat|] == s[j + 1..j + 1 + |pat|];
    }
  }

  /** When `pat` does not occur in `s`, `replace` returns `s` unchanged. */
  lemma {:induction false} ReplaceFirstNoMatch(s: string, pat: string, rep: string)
    requires forall k :: 0 <= k <= |s| ==> !OccursAt(s, pat, k)
    ensures ReplaceFirst(s, pat, rep) == s
    decreases |s|
  {
    assert !OccursAt(s, pat, 0);
    if s != [] {
      forall k | 0 <= k <= |s[1..]|
        ensures !OccursAt(s[1..], pat, k)
      {
        OccursAtTail(s, pat, k);
      }
      ReplaceFirstNoMatch(s[1..], pat, rep);
    }
  }

  /** Moving one character to the right: an occurrence at `k` that is the first one stays the first one in the tail. */
  lemma FirstOccurrenceInTail(s: string, pat: string, k: nat)
    requires 0 < k && OccursAt(s, pat, k)
    requires forall j :: 0 <= j < k ==> !OccursAt(s, pat, j)
    ensures !(pat <= s)
    ensures OccursAt(s[1..], pat, k - 1)
    ensures forall j :: 0 <= j < k - 1 ==> !OccursAt(s[1..], pat, j)
  {
    assert !OccursAt(s, pat, 0);
    forall j | 0 <= j < k - 1
      ensures !OccursAt(s[1..], pat, j)
    {
      OccursAtTail(s, pat, j);
    }
    OccursAtTail(s, pat, k - 1);
  }

  /** When the first occurrence of `pat` starts at `k`, exactly that occurrence is replaced. */
  lemma {:induction false} ReplaceFirstAt(s: string, pat: string, rep: string, k: nat)
    requires OccursAt(s, pat, k)
    requires forall j :: 0 <= j < k ==> !OccursAt(s, pat, j)
    ensures ReplaceFirst(s, pat, rep) == s[..k] + rep + s[k + |pat|..]
    decreases k
  {
    if k == 0 {
      assert s[..|pat|] == pat;
    } else {
      FirstOccurrenceInTail(s, pat, k);
      var t := s[1..];
      assert ReplaceFirst(s, pat, rep) == [s[0]] + ReplaceFirst(t, pat, rep);
      ReplaceFirstAt(t, pat, rep, k - 1);
      assert s[..k] == [s[0]] + t[..k - 1];
      assert s[k + |pat|..] == t[k - 1 + |pat|..];
    }
  }

  /** For a one-character pattern, the first occurrence is the first index holding that character. */
  lemma ReplaceFirstCharAt(s: string, c: char, rep: string, k: nat)
    requires k < |s| && s[k] == c
    requires forall j :: 0 <= j < k ==> s[j] != c
    ensures ReplaceFirst(s, [c], rep) == s[..k] + rep + s[k + 1..]
  {
    forall j | 0 <= j < k
      ensures !OccursAt(s, [c], j)
    {
      assert s[j..j + 1] == [s[j]];
    }
    assert s[k..k + 1] == [c];
    ReplaceFirstAt(s, [c], rep, k);
  }

  /** A one-character pattern that does not occur leaves the string unchanged. */
  lemma ReplaceFirstCharAbsent(s: string, c: char, rep: string)
    requires c !in s
    ensures ReplaceFirst(s, [c], rep) == s
  {
    forall j | 0 <= j <= |s|
      ensures !OccursAt(s, [c], j)
    {
      if j < |s| {
        assert s[j..j + 1] == [s[j]];
      }
    }
    ReplaceFirstNoMatch(s, [c], rep);
  }

  function Clamp(i: int, len: nat): (r: nat)
    ensures r <= len
  {
    if i < 0 then 0 else if i > len then len else i
  }

  /**
   * `s.substring(start, end)`: both indices are clamped to `[0, |s|]` and swapped
   * when `start > end`.
   */
  function Substring(s: string, start: int, end: int): (r: string)
    ensures |r| <= |s|
    ensures 0 <= start <= end <= |s| ==> r == s[start..end]
    ensures 0 <= end <= start <= |s| ==> r == s[end..start]
    ensures 0 <= start <= |s| <= end ==> r == s[start..]
  {
    var a, b := Clamp(start, |s|), Clamp(end, |s|);
    if a <= b then s[a..b] else s[b..a]
  }

  /** The characters `Number.prototype.toString(36)` writes for digits: `0-9` and `a-z`. */
  predicate IsBase36Lower(c: char) {
    '0' <= c <= '9' || 'a' <= c <= 'z'
  }

  predicate IsUpperAlnum(c: char) {
    '0' <= c <= '9' || 'A' <= c <= 'Z'
  }

  function UpperChar(c: char): char {
    if 'a' <= c <= 'z' then (c as int - 32) as char else c
  }

  /** `s.toUpperCase()` restricted to ASCII letters (the only letters it meets here). */
  function ToUpperCase(s: string): (r: string)
    ensures |r| == |s|
    ensures forall i :: 0 <= i < |s| && 'a' <= s[i] <= 'z' ==> 'A' <= r[i] <= 'Z' && r[i] as int == s[i] as int - 32
    ensures forall i :: 0 <= i < |s| && !('a' <= s[i] <= 'z') ==> r[i] == s[i]
  {
    seq(|s|, i requires 0 <= i < |s| => UpperChar(s[i]))
  }

  /** Upper-casing base-36 digits yields only `0-9A-Z`, one character for one. */
  lemma UpperCaseOfBase36(s: string)
    requires forall i :: 0 <= i < |s| ==> IsBase36Lower(s[i])
    ensures |ToUpperCase(s)| == |s|
    ensures forall i :: 0 <= i < |s| ==> IsUpperAlnum(ToUpperCase(s)[i])
  {
  }

  predicate IsDigit(c: char) {
    '0' <= c <= '9'
  }

  function DigitChar(d: int): char
    requires 0 <= d < 10
  {
    ('0' as int + d) as char
  }

  function DigitValue(c: char): (d: nat)
    requires IsDigit(c)
    ensures d < 10 && DigitChar(d) == c
  {
    c as int - '0' as int
  }

  /**
   * The decimal text of `n`, as a template literal renders a non-negative integer:
   * at least one digit, and no leading zero unless `n` is zero.
   */
  function DecimalString(n: nat): (r: string)
    ensures |r| >= 1
    ensures forall i :: 0 <= i < |r| ==> IsDigit(r[i])
    ensures r[0] == '0' ==> n == 0
    decreases n
  {
    if n < 10 then [DigitChar(n)] else DecimalString(n / 10) + [DigitChar(n % 10)]
  }

  /** Reads a string of decimal digits back as a number. */
  function ParseDecimal(s: string): nat
    requires forall i :: 0 <= i < |s| ==> IsDigit(s[i])
  {
    if s == [] then 0 else ParseDecimal(s[..|s| - 1]) * 10 + DigitValue(s[|s| - 1])
  }

  /** The decimal text determines the number: parsing it gives `n` back. */
  lemma {:induction false} ParseDecimalOfDecimalString(n: nat)
    ensures ParseDecimal(DecimalString(n)) == n
    decreases n
  {
    var r := DecimalString(n);
    if n >= 10 {
      assert r[..|r| - 1] == DecimalString(n / 10);
      ParseDecimalOfDecimalString(n / 10);
    }
  }

  /**
   * `Math.round(x)`: the integer nearest to `x`, halves rounded towards +infinity.
   */
  function MathRound(x: real): (r: int)
    ensures r as real - 0.5 <= x < r as real + 0.5
  {
    (x + 0.5).Floor
  }

  lemma MathRoundOfInteger(n: int)
    ensures MathRound(n as real) == n
  {
  }
}

=== FILE: order_store.dfy ===
/**
 * The part of the hosted database the checkout pipeline touches: the `orders` table,
 * keyed by order id, and the `order_items` table, in insertion order. Each write the
 * handlers issue (`insert`, `update(...).eq("id", id)`) is a method here; whether the
 * database rejects a write is an input (`fault`), since it is decided outside the source.
 */
module OrderStore {
  import opened Wrappers

  /** The JSON shape of `shipping_address` / `billing_address`; an absent optional line is "". */
  datatype Address = Address(
    fullName: string,
    addressLine1: string,
    addressLine2: string,
    city: string,
    state: string,
    postalCode: string,
    country: string,
    phone: string)

  /** A row of the `orders` table, as far as the pipeline writes it. */
  datatype Order = Order(
    id: string,
    userId: string,
    orderNumber: string,
    totalAmount: real,
    shippingAddress: Address,
    billingAddress: Address,
    status: string,
    paymentStatus: string,
    stripeSessionId: Option<string>,
    updatedAt: Option<string>)

  /** A row of the `order_items` table: the price is the one captured at checkout time. */
  datatype OrderItem = OrderItem(orderId: string, productId: string, quantity: int, price: real)

  const PENDING := "pending"
  const CONFIRMED := "confirmed"
  const PAID := "paid"

  /** The column values of one `update(...)` call on an order row. */
  datatype Patch =
    | SessionIdPatch(sessionId: string)
    | SettlementPatch(paymentStatus: string, status: string, updatedAt: string)

  function Patched(o: Order, p: Patch): (r: Order)
    ensures r.id == o.id && r.orderNumber == o.orderNumber && r.totalAmount == o.totalAmount
    ensures r.userId == o.userId
  {
    match p
    case SessionIdPatch(sid) => o.(stripeSessionId := Some(sid))
    case SettlementPatch(ps, st, at) => o.(paymentStatus := ps, status := st, updatedAt := Some(at))
  }

  /**
   * `update(patch).eq("id", id)`: patches the one row whose id is `id`; a filter matching
   * no row is not an error and changes nothing.
   */
  function ApplyUpdate(orders: map<string, Order>, id: string, p: Patch): (r: map<string, Order>)
    ensures r.Keys == orders.Keys
    ensures forall k :: k in orders && k != id ==> r[k] == orders[k]
    ensures id in orders ==> r[id] == Patched(orders[id], p)
  {
    if id in orders then orders[id := Patched(orders[id], p)] else orders
  }

  /** The two status pairs the pipeline ever writes: pending/pending and confirmed/paid. */
  predicate PipelineStatus(o: Order) {
    (o.status == PENDING && o.paymentStatus == PENDING) ||
    (o.status == CONFIRMED && o.paymentStatus == PAID)
  }

  predicate AllPipelineStatuses(orders: map<string, Order>) {
    forall k :: k in orders ==> PipelineStatus(orders[k])
  }

  /**
   * Attaching a session id never touches the statuses, and settling always lands on
   * confirmed/paid: neither write leads an order out of the two pipeline states.
   */
  lemma PipelineUpdatesKeepStatuses(orders: map<string, Order>, id: string, sid: string, at: string)
    requires AllPipelineStatuses(orders)
    ensures AllPipelineStatuses(ApplyUpdate(orders, id, SessionIdPatch(sid)))
    ensures AllPipelineStatuses(ApplyUpdate(orders, id, SettlementPatch(PAID, CONFIRMED, at)))
  {
  }

  class Store {
    var orders: map<string, Order>
    var orderItems: seq<OrderItem>

    constructor ()
      ensures orders == map[] && orderItems == []
    {
      orders := map[];
      orderItems := [];
    }

    /** `from("orders").insert(row).select().single()`: the row appears under its fresh id, or nothing changes. */
    method InsertOrder(row: Order, fault: Option<string>) returns (err: Option<string>)
      requires row.id !in orders
      modifies this
      ensures err == fault
      ensures orders == if fault.None? then old(orders)[row.id := row] else old(orders)
      ensures orderItems == old(orderItems)
    {
      err := fault;
      if fault.None? {
        orders := orders[row.id := row];
      }
    }

    /** `from("order_items").insert(rows)`: all rows are appended, or none is. */
    method InsertItems(rows: seq<OrderItem>, fault: Option<string>) returns (err: Option<string>)
      modifies this
      ensures err == fault
      ensures orderItems == if fault.None? then old(orderItems) + rows else old(orderItems)
      ensures orders == old(orders)
    {
      err := fault;
      if fault.None? {
        orderItems := orderItems + rows;
      }
    }

    /** `from("orders").update(patch).eq("id", id)`. */
    method Update(id: string, p: Patch, fault: Option<string>) returns (err: Option<string>)
      modifies this
      ensures err == fault
      ensures orders == if fault.None? then ApplyUpdate(old(orders), id, p) else old(orders)
      ensures orderItems == old(orderItems)
    {
      err := fault;
      if fault.None? {
        orders := ApplyUpdate(orders, id, p);
      }
    }
  }
}

=== FILE: product_details.dfy ===
/**
 * The product page: the image list it shows, the quantity stepper clamped to the stock,
 * which controls are shown or disabled, and the Add to Cart handler.
 */
module ProductDetails {
  import opened Wrappers

  /** The product columns the page's logic reads; a null `images` is `None`. */
  datatype Product = Product(id: string, name: string, imageUrl: string, images: Option<seq<string>>, stock: int)

  /**
   * `images`: the product's own list when it has one with at least one entry, otherwise the
   * single main image. The page therefore always has an image to show at index 0.
   */
  function DisplayImages(p: Product): (r: seq<string>)
    ensures |r| >= 1
    ensures p.images.Some? && |p.images.value| > 0 ==> r == p.images.value
    ensures p.images.None? || |p.images.value| == 0 ==> r == [p.imageUrl]
  {
    if p.images.Some? && |p.images.value| > 0 then p.images.value else [p.imageUrl]
  }

  /** The quantity selector is rendered only for a product in stock. */
  predicate SelectorShown(p: Product) {
    p.stock > 0
  }

  /** Add to Cart is disabled only when the stock is exactly zero. */
  predicate AddToCartDisabled(p: Product) {
    p.stock == 0
  }

  predicate DecrementDisabled(quantity: int) {
    quantity <= 1
  }

  predicate IncrementDisabled(quantity: int, stock: int) {
    quantity >= stock
  }

  /** The minus button's `Math.max(1, quantity - 1)`. */
  function Decremented(quantity: int): (r: int)
    ensures r >= 1
    ensures quantity > 1 ==> r == quantity - 1
    ensures quantity <= 1 ==> r == 1
  {
    if quantity - 1 > 1 then quantity - 1 else 1
  }

  /** The plus button's `Math.min(stock, quantity + 1)`. */
  function Incremented(quantity: int, stock: int): (r: int)
    ensures r <= stock
    ensures quantity < stock ==> r == quantity + 1
    ensures quantity >= stock ==> r == stock
  {
    if stock < quantity + 1 then stock else quantity + 1
  }

  /** The range the stepper keeps the quantity in. */
  predicate InRange(quantity: int, stock: int) {
    1 <= quantity <= stock
  }

  /**
   * For a product in stock, both buttons keep the quantity within `[1, stock]`, and each
   * moves it by at most one.
   */
  lemma StepperKeepsRange(quantity: int, stock: int)
    requires InRange(quantity, stock)
    ensures InRange(Decremented(quantity), stock) && InRange(Incremented(quantity, stock), stock)
    ensures quantity - 1 <= Decremented(quantity) <= quantity
    ensures quantity <= Incremented(quantity, stock) <= quantity + 1
  {
  }

  /**
   * A button is disabled exactly when pressing it could not change an in-range quantity,
   * and an enabled button moves the quantity by exactly one.
   */
  lemma DisabledExactlyAtTheBounds(quantity: int, stock: int)
    requires InRange(quantity, stock)
    ensures DecrementDisabled(quantity) <==> Decremented(quantity) == quantity
    ensures IncrementDisabled(quantity, stock) <==> Incremented(quantity, stock) == quantity
    ensures !DecrementDisabled(quantity) ==> Decremented(quantity) == quantity - 1
    ensures !IncrementDisabled(quantity, stock) ==> Incremented(quantity, stock) == quantity + 1
  {
  }

  /**
   * A shown selector and a disabled Add to Cart button never go together, but a negative
   * stock hides the selector while leaving Add to Cart enabled.
   */
  lemma ControlsForStock(p: Product)
    ensures SelectorShown(p) ==> !AddToCartDisabled(p)
    ensures AddToCartDisabled(p) ==> !SelectorShown(p)
    ensures p.stock < 0 ==> !SelectorShown(p) && !AddToCartDisabled(p)
  {
  }

  /**
   * The page state. The handlers are the click handlers of the buttons, so each requires
   * its button to be rendered and enabled.
   */
  class ProductView {
    /** `null` until the product has been fetched. */
    var product: Option<Product>
    var quantity: int

    /** The quantity the page can show and pass to the cart is at least 1. */
    predicate Valid()
      reads this
    {
      quantity >= 1
    }

    constructor ()
      ensures Valid()
      ensures product.None? && quantity == 1
    {
      product := None;
      quantity := 1;
    }

    /**
     * The end of `fetchProduct`: the fetched product is stored; a failed fetch keeps the
     * previously loaded product, if any, and sends the shopper home. The quantity is not
     * reset.
     */
    method Fetched(reply: Option<Product>) returns (navigateHome: bool)
      requires Valid()
      modifies this
      ensures Valid()
      ensures navigateHome <==> reply.None?
      ensures reply.Some? ==> product == reply
      ensures reply.None? ==> product == old(product)
      ensures quantity == old(quantity)
    {
      if reply.Some? {
        product := reply;
        navigateHome := false;
      } else {
        navigateHome := true;
      }
    }

    /** The minus button: rendered for a product in stock, enabled above 1. */
    method Decrement()
      requires Valid()
      requires product.Some? && SelectorShown(product.value) && !DecrementDisabled(quantity)
      modifies this
      ensures Valid()
      ensures product == old(product)
      ensures quantity == Decremented(old(quantity)) == old(quantity) - 1
      ensures InRange(old(quantity), product.value.stock) ==> InRange(quantity, product.value.stock)
    {
      quantity := if 1 > quantity - 1 then 1 else quantity - 1;
    }

    /** The plus button: rendered for a product in stock, enabled below the stock. */
    method Increment()
      requires Valid()
      requires product.Some? && SelectorShown(product.value) && !IncrementDisabled(quantity, product.value.stock)
      modifies this
      ensures Valid()
      ensures product == old(product)
      ensures quantity == Incremented(old(quantity), product.value.stock) == old(quantity) + 1
      ensures InRange(quantity, product.value.stock)
    {
      var stock := product.value.stock;
      quantity := if stock < quantity + 1 then stock else quantity + 1;
    }

    /**
     * `handleAddToCart`, from the Add to Cart button, which is disabled at stock 0: the
     * cart receives the shown product's id and the current quantity, at least 1; with no
     * product loaded nothing is added.
     */
    method AddToCart() returns (added: Option<(string, int)>)
      requires Valid()
      requires product.Some? ==> !AddToCartDisabled(product.value)
      ensures added.Some? <==> product.Some?
      ensures added.Some? ==> added.value.0 == product.value.id && added.value.1 == quantity
      ensures added.Some? ==> added.value.1 >= 1 && product.value.stock != 0
    {
      if product.Some? {
        added := Some((product.value.id, quantity));
      } else {
        added := None;
      }
    }
  }
}

=== FILE: verify_payment.dfy ===
/**
 * The `verify-payment` edge function: after the buyer returns from Stripe it asks Stripe
 * for the session's `payment_status` and, only when that is "paid", marks the order
 * paid and confirmed.
 */
module VerifyPayment {
  import opened Wrappers
  import opened OrderStore

  /** The JSON body; a missing or empty member is "". */
  datatype VerifyRequest = VerifyRequest(sessionId: string, orderId: string)

  /** `stripe.checkout.sessions.retrieve(session_id)`: a thrown error, or the session's raw status. */
  datatype RetrieveReply = RetrieveFailed(message: string) | Retrieved(paymentStatus: string)

  /** Everything the handler learns from outside its own code. */
  datatype VerifyServices = VerifyServices(
    stripeKey: string,
    retrieveSession: string -> RetrieveReply,
    now: string,
    updateFault: Option<string>)

  /** `{success, payment_status, order_status?}` with status 200, or `{error}` with status 500. */
  datatype VerifyResponse =
    | Verified(success: bool, paymentStatus: string, orderStatus: Option<string>)
    | VerifyFailed(error: string)

  /** The status the response is sent with: 200 from the two success paths, 500 from the `catch`. */
  function HttpStatus(r: VerifyResponse): int {
    if r.Verified? then 200 else 500
  }

  /** The settlement write: `update({payment_status: "paid", status: "confirmed", updated_at}).eq("id", orderId)`. */
  function Settle(orders: map<string, Order>, orderId: string, now: string): (r: map<string, Order>)
    ensures r.Keys == orders.Keys
    ensures forall k :: k in orders && k != orderId ==> r[k] == orders[k]
    ensures orderId in orders ==>
      r[orderId] == orders[orderId].(paymentStatus := PAID, status := CONFIRMED, updatedAt := Some(now))
  {
    ApplyUpdate(orders, orderId, SettlementPatch(PAID, CONFIRMED, now))
  }

  /**
   * Settling an order that is already settled re-writes the same statuses: the only
   * difference is the new `updated_at`.
   */
  lemma SettleTwice(orders: map<string, Order>, orderId: string, first: string, second: string)
    ensures var once := Settle(orders, orderId, first);
      var twice := Settle(once, orderId, second);
      && twice.Keys == once.Keys
      && (forall k :: k in once ==> twice[k].status == once[k].status && twice[k].paymentStatus == once[k].paymentStatus)
      && (forall k :: k in once ==> twice[k] == if k == orderId then once[k].(updatedAt := Some(second)) else once[k])
      && twice == Settle(orders, orderId, second)
  {
    var once := Settle(orders, orderId, first);
    var twice := Settle(once, orderId, second);
    var direct := Settle(orders, orderId, second);
    assert forall k :: k in twice ==> twice[k] == direct[k];
  }

  /** Settling an order id that matches no row changes nothing (and is not an error). */
  lemma SettleUnknownOrder(orders: map<string, Order>, orderId: string, now: string)
    requires orderId !in orders
    ensures Settle(orders, orderId, now) == orders
  {
  }

  /**
   * The `serve` handler for a POST. Only a "paid" report followed by a successful write
   * changes the store, and only the row `orderId`; every other path leaves the store as it
   * was. A failed write is always an error response.
   */
  method HandleVerifyPayment(store: Store, req: VerifyRequest, env: VerifyServices)
    returns (resp: VerifyResponse)
    modifies store
    ensures store.orderItems == old(store.orderItems)
    ensures env.stripeKey == "" ==>
      resp == VerifyFailed("Stripe configuration missing") && store.orders == old(store.orders)
    ensures env.stripeKey != "" && (req.sessionId == "" || req.orderId == "") ==>
      resp == VerifyFailed("Session ID and Order ID are required") && store.orders == old(store.orders)
    ensures env.stripeKey != "" && req.sessionId != "" && req.orderId != "" ==>
      match env.retrieveSession(req.sessionId)
      case RetrieveFailed(m) =>
        resp == VerifyFailed(m) && store.orders == old(store.orders)
      case Retrieved(status) =>
        if status != PAID then
          resp == Verified(false, status, None) && store.orders == old(store.orders)
        else if env.updateFault.Some? then
          resp == VerifyFailed("Failed to update order: " + env.updateFault.value) && store.orders == old(store.orders)
        else
          resp == Verified(true, PAID, Some(CONFIRMED)) && store.orders == Settle(old(store.orders), req.orderId, env.now)
    ensures resp.Verified? && resp.success ==> store.orders == Settle(old(store.orders), req.orderId, env.now)
    ensures !(resp.Verified? && resp.success) ==> store.orders == old(store.orders)
    ensures HttpStatus(resp) == 200 <==>
      && env.stripeKey != "" && req.sessionId != "" && req.orderId != ""
      && env.retrieveSession(req.sessionId).Retrieved?
      && (env.retrieveSession(req.sessionId).paymentStatus != PAID || env.updateFault.None?)
    ensures HttpStatus(resp) == 500 ==> store.orders == old(store.orders)
  {
    if env.stripeKey == "" {
      return VerifyFailed("Stripe configuration missing");
    }
    if req.sessionId == "" || req.orderId == "" {
      return VerifyFailed("Session ID and Order ID are required");
    }
    var session := env.retrieveSession(req.sessionId);
    if session.RetrieveFailed? {
      return VerifyFailed(session.message);
    }
    if session.paymentStatus == PAID {
      var err := store.Update(req.orderId, SettlementPatch(PAID, CONFIRMED, env.now), env.updateFault);
      if err.Some? {
        return VerifyFailed("Failed to update order: " + err.value);
      }
      resp := Verified(true, PAID, Some(CONFIRMED));
    } else {
      resp := Verified(false, session.paymentStatus, None);
    }
  }

  /**
   * Verifying the same paid session twice: both calls answer success with the same
   * statuses, and the store ends as one settlement stamped with the second time.
   */
  method VerifyTwice(store: Store, req: VerifyRequest, first: VerifyServices, second: VerifyServices)
    returns (r1: VerifyResponse, r2: VerifyResponse)
    requires first.stripeKey != "" && second.stripeKey != ""
    requires req.sessionId != "" && req.orderId != ""
    requires first.retrieveSession(req.sessionId) == Retrieved(PAID)
    requires second.retrieveSession(req.sessionId) == Retrieved(PAID)
    requires first.updateFault.None? && second.updateFault.None?
    modifies store
    ensures r1 == r2 == Verified(true, PAID, Some(CONFIRMED))
    ensures store.orders == Settle(old(store.orders), req.orderId, second.now)
  {
    r1 := HandleVerifyPayment(store, req, first);
    SettleTwice(old(store.orders), req.orderId, first.now, second.now);
    r2 := HandleVerifyPayment(store, req, second);
  }
}

=== FILE: wrappers.dfy ===
/** The optional value used wherever the source has a value that may be null, undefined or absent. */
module Wrappers {

  datatype Option<+T> = None | Some(value: T) {

    /** The value, or `default` when absent (JavaScript's `x ?? default`). */
    function GetOr(default: T): T {
      match this
      case Some(v) => v
      case None => default
    }
  }
}
